=== FILE: README.md ===
# pypreprocess job compiler, modelled in Dafny

This project models the job-configuration compiler of pypreprocess
(`pypreprocess/conf_parser.py`). It turns a job file into two things: the
list of subject descriptors (`SubjectData`) and the dictionary of
preprocessing parameters the SPM pipeline runs with.

The modelled pieces:

- `_parse_job` and its `sanitize` callback coerce the raw strings ConfigObj
  reads into booleans, `None`, numbers and lists of numbers.
- `_del_nones_from_dict` prunes the `None`s.
- `_path_diff` strips a parent directory off a path.
- `_generate_preproc_pipeline` resolves the dataset and output directories,
  selects the subject directories, builds one descriptor per subject and
  assembles the parameters.

Modules, one per concern:

| file | module | what it holds |
|---|---|---|
| results.dfy | `Results` | `Option` and `Result`: a Python `None` and a raised exception |
| text.dfy | `Text` | lower-casing, splitting, joining, lexicographic order |
| paths.dfy | `Paths` | `os.path.join`, `basename`, `dirname`, `_path_diff` |
| config_tree.dfy | `ConfigTree` | the configuration tree, `dict.get`, Python truthiness, `_del_nones_from_dict` |
| literals.dfy | `Literals` | the decimal literals `numpy.fromstring` reads |
| sorting.dfy | `Sorting` | `sorted` on strings |
| sanitizer.dfy | `Sanitizer` | `sanitize` and the walk of `_parse_job` |
| environment.dfy | `Environment` | the filesystem and `_expand_path`, as values |
| discovery.dfy | `Discovery` | session keys, `_ignore_subject`, the subject cap, the subject loop |
| preproc_params.dfy | `PreprocParams` | the preprocessing parameters |
| pipeline.dfy | `Pipeline` | `_generate_preproc_pipeline` end to end |

How the outside world is represented:

- Every exception the compiler can raise is a constructor of
  `ConfigTree.Error`, returned through `Result`. This covers a failed
  `assert`, a `KeyError`, a `TypeError`, and the `RuntimeError` for an
  unexpandable output directory.
- The filesystem questions (`glob.glob`, `os.path.isfile`, `os.path.isdir`,
  `os.path.exists`) and `_expand_path` are fields of the
  `Environment.FileSystem` record.
- `eval` is the `Sanitizer.Evaluator` parameter.

## Model

| member | source | states |
|---|---|---|
| Sanitizer.CoerceWord | pypreprocess/conf_parser.py:42-50 | A string value becomes `True` exactly when it is "true" or "yes" in any case, and `False` exactly for "false" or "no". For any key other than `slice_order`, it becomes `None` exactly for "none", "auto", "unspecified" or "unknown", and any other string, like every non-string, is left unchanged. Under `slice_order` a string that is not a boolean word is lower-cased. |
| Sanitizer.EvalStep | pypreprocess/conf_parser.py:52-55 | `None` is left alone. A string is replaced by what `eval` makes of it, and fails when `eval` raises. Any other value fails with a type error. |
| Sanitizer.Sanitize | pypreprocess/conf_parser.py:35-66 | A string `slice_order` comes back untouched. Keys outside the eval and list groups only get the word coercion. An eval key holding a null word gives `None`. An eval key holding a list, a section, or a word coerced to a boolean raises the `TypeError` of line 55. A plain string gives `eval`'s number or its error. A list key holding a section or a coerced word raises, and otherwise yields a number or a list of numbers. This is the corrected reading of :60, under which a bare string is one item (see Findings); the numbers themselves are stated by `Sanitizer.SanitizeListOfLiterals`. |
| Sanitizer.NumericList | pypreprocess/conf_parser.py:59-64 | A successful read gives one bare number or a list whose length is not one. The numbers are `int` exactly for `slice_order` and `float` otherwise. |
| Sanitizer.SanitizeListOfLiterals | pypreprocess/conf_parser.py:57-64 | A list of literals under a list key becomes exactly those numbers, in order and as many. A single literal becomes a bare number. |
| Sanitizer.SanitizeIgnoresBrackets | pypreprocess/conf_parser.py:60-61 | Removing the square brackets from the items does not change the result: `[1, 2]` reads like `1, 2`. |
| Sanitizer.SanitizeAsWritten | pypreprocess/conf_parser.py:35-64 | The code as written gives exactly what `Sanitize` gives, except for an uncoerced bare string under a list key other than `slice_order`. That string is read as the list of its characters. |
| Sanitizer.BareListValueIsOneItem | pypreprocess/conf_parser.py:57-64 | In the corrected reading, a bare string under a list key other than `slice_order` reads like the one-item list holding it. |
| Sanitizer.FwhmTenAsWrittenIsOneZero | pypreprocess/conf_parser.py:60 | As written, `fwhm = 10` yields the list `[1.0, 0.0]`. |
| Sanitizer.FwhmTenIsTen | pypreprocess/conf_parser.py:57-64 | In the corrected reading, `fwhm = 10` yields `10.0`. |
| Sanitizer.SanitizeEntries | pypreprocess/conf_parser.py:68-69 | The walk succeeds exactly when `sanitize` succeeds on every entry at every depth. It then keeps every entry and its key in place. Every scalar is replaced by its sanitised value. A section stays a section with as many children, each of them walked the same way. |
| Sanitizer.SanitizeEntry | pypreprocess/conf_parser.py:35-69 | Walking an entry succeeds exactly when `sanitize` succeeds on it and on every entry below it. The result keeps the key. A scalar carries the sanitised value. A section holds its children walked in the same way, in order and at every depth. |
| Sanitizer.GetAligned | pypreprocess/conf_parser.py:68-71 | Looking a key up in a walked section finds something exactly when the original section has that key. What it finds is the walked form of the original value. |
| Sanitizer.ParseJob | pypreprocess/conf_parser.py:32-71 | A parse succeeds exactly when the walk gets through every entry at every depth and a `config` entry exists. The result is the `config` value walked entry by entry, at every depth. |
| ConfigTree.Get | pypreprocess/conf_parser.py:116-120 | `get` finds nothing exactly when the key is absent. Otherwise it finds the value stored under that key. |
| ConfigTree.DelNones | pypreprocess/conf_parser.py:10-18 | No `None` remains anywhere in the result. A section stays a section, and any other value is returned as it is. |
| ConfigTree.DelNonesLookup | pypreprocess/conf_parser.py:10-18 | After pruning, a key maps to nothing when it held `None` or was absent. Otherwise it maps to the pruned value. |
| ConfigTree.DelNonesKeepsOnlyNonNullKeys | pypreprocess/conf_parser.py:10-18 | The pruned section's keys are exactly the keys whose value was not `None`. |
| ConfigTree.DelNonesIdempotent | pypreprocess/conf_parser.py:10-18 | Pruning twice is pruning once. |
| ConfigTree.DelNonesInConcat | pypreprocess/conf_parser.py:10-18 | Pruning works entry by entry and keeps the surviving entries in their order: pruning a concatenation is concatenating the pruned parts. |
| ConfigTree.DelNonesInOne | pypreprocess/conf_parser.py:10-18 | One entry is dropped when it holds `None`, and otherwise kept under its key with its value pruned. |
| Paths.Join | pypreprocess/conf_parser.py:137-139 | `os.path.join` with an absolute second part returns that part. Otherwise the result starts with the first part and ends with the second. A slash is put between them only when the first part is non-empty and does not already end in one. |
| Paths.BasenameOfJoin | pypreprocess/conf_parser.py:154 | The basename of a directory joined with a slash-free name is that name. |
| Paths.PathDiff | pypreprocess/conf_parser.py:21-29 | There is a difference exactly when the child starts with the parent and a slash. The difference is what follows, up to the first line break, since `.` does not match one. |
| Paths.PathDiffOfJoined | pypreprocess/conf_parser.py:21-29 | Stripping a parent from `parent + "/" + s` gives `s` back, for any `s` without a line break. |
| Paths.PathDiffExample | pypreprocess/conf_parser.py:22-24 | The docstring's example: "/family/johndoe" and "/family/johndoe/bob/pet" give "bob/pet". |
| Literals.ParseTokens | pypreprocess/conf_parser.py:62 | The read succeeds exactly when every token is a literal of the dtype. It then yields one number per token, in order. |
| Literals.ParseShowFloat | pypreprocess/conf_parser.py:62 | Under the float dtype, the decimal numeral of `n` reads back as `n`. |
| Sorting.Sort | pypreprocess/conf_parser.py:144 | `sorted` returns an ordered permutation of its input. |
| Sorting.SortIsDeterministic | pypreprocess/conf_parser.py:144 | Two listings with the same elements sort to the same sequence. |
| Discovery.SessionId | pypreprocess/conf_parser.py:140-142 | A key names a session exactly when `session_(.+)_func` matches at its start. The id is the longest group that matches, and text may follow `_func`. |
| Discovery.SessionEntries | pypreprocess/conf_parser.py:140 | The session entries are exactly the option entries whose key names a session. They are empty when no key does. |
| Discovery.SessionEntriesInKeyOrder | pypreprocess/conf_parser.py:140 | The session entries sit at strictly increasing positions of the options, so they keep the options' key order with no entry repeated. Every session entry is among them. |
| Discovery.IgnoreSubject | pypreprocess/conf_parser.py:122-134 | With both lists usable, a subject is ignored exactly when it is excluded, or when a non-empty include list omits it. Exclusion wins. An exclude value `in` cannot search raises. So does an include value `len` cannot measure, once the subject is not excluded. |
| Discovery.BareExcludeIsSubstringTest | pypreprocess/conf_parser.py:128 | A single excluded id given as a bare string is searched as a substring. Excluding "sub10" therefore also excludes "sub1". |
| Discovery.CapIsReachedCount | pypreprocess/conf_parser.py:145-146 | The loop's `subject_count == nsubjects` holds at exactly one count, the cap, and never when there is no cap. |
| Discovery.GrabSession | pypreprocess/conf_parser.py:159-180 | One session succeeds exactly when its pattern matches an image. The functional data is the sorted matches, bare when there is one. The output directory mirrors the image directory's basename. |
| Discovery.GrabEach | pypreprocess/conf_parser.py:159-180 | The session loop succeeds exactly when every session does. It then records one result per session, in order. |
| Discovery.GrabSessionsSucceeds | pypreprocess/conf_parser.py:159-165 | A subject's sessions are all found exactly when every session pattern is a string with a match. |
| Discovery.GrabAnat | pypreprocess/conf_parser.py:185-194 | An unset `anat` gives no image and an empty directory. A set one is joined onto the subject directory and must be a file, with no globbing. |
| Discovery.GrabAnatSucceeds | pypreprocess/conf_parser.py:185-194 | The anatomical image is found exactly when the option is unset or names an existing file. |
| Discovery.BuildSubjectSpec | pypreprocess/conf_parser.py:148-209 | A subject directory yields a descriptor exactly when all its sessions and its anatomical image are found. The descriptor records the basename as id, the output directories, the sorted images and the session ids. The directories to create are its output directories that do not exist yet. |
| Discovery.BuildSubjectCreates | pypreprocess/conf_parser.py:171-200 | The directories to create are exactly the session and anatomical output directories that did not exist before compilation. |
| Discovery.AnatOutputDirIsImageDir | pypreprocess/conf_parser.py:191-197 | Under an absolute subject directory, the anatomical output directory is the image's own directory, not one below the subject's output directory. |
| Discovery.KeptDirsMembers | pypreprocess/conf_parser.py:144-152 | A candidate directory is kept exactly when its basename is not ignored. |
| Discovery.SubjectLoopSucceeds | pypreprocess/conf_parser.py:144-209 | The loop succeeds exactly when every selected directory builds. Selected means the first `nsubjects` sorted candidates that are not ignored. |
| Discovery.SubjectLoopSelects | pypreprocess/conf_parser.py:144-209 | A successful loop yields exactly one descriptor per selected directory, in sorted order. |
| Discovery.SubjectLoopCreates | pypreprocess/conf_parser.py:144-209 | The directories a successful loop asks to create are exactly those that some selected subject asks for. |
| PreprocParams.AssembleFails | pypreprocess/conf_parser.py:249-252 | Assembly fails exactly when coregistration is on and `coregister_reslice` is missing, with that key as the error. |
| PreprocParams.AssembleStagesPresent | pypreprocess/conf_parser.py:229-269 | Every stage is on exactly when its `disable_` option is not truthy. A stage's options are present exactly when it is on. |
| PreprocParams.AssembleSliceTiming | pypreprocess/conf_parser.py:229-238 | Slice timing is on exactly when it is not disabled and a TR is given. When not disabled, its four options are copied, `None` when absent, even when the missing TR switches it off. |
| PreprocParams.AssembleStageOptions | pypreprocess/conf_parser.py:240-269 | Each stage option is the given value or the default the code names. `coreg_anat_to_func` is the negation of `coreg_func_to_anat`, which defaults to true. |
| PreprocParams.AssemblePlainOptions | pypreprocess/conf_parser.py:214-227 | The plain entries are the given options or their defaults. `dataset_id` defaults to the dataset directory and `fwhm` to 0. |
| PreprocParams.EmptyOptionsFail | pypreprocess/conf_parser.py:248-252 | With no options at all, every stage is on and coregistration fails for want of `coregister_reslice`. |
| PreprocParams.DefaultsWithoutCoregistration | pypreprocess/conf_parser.py:214-272 | With coregistration disabled and nothing else given, the result shows the defaults. Slice timing is off, though its options are present as `None`. |
| Pipeline.Options | pypreprocess/conf_parser.py:82-84 | A missing job file fails, and the options hold no `None` anywhere. |
| Pipeline.OptionsSucceeds | pypreprocess/conf_parser.py:82-84 | For an existing job file, the options are obtained exactly when the walk gets through every entry at every depth and `config` is a section. |
| Pipeline.OptionsLookup | pypreprocess/conf_parser.py:82-84 | The options come from a `config` section. Each scalar option holds the sanitised value of the job file's entry. It is absent when that value is `None` or the job file does not set the key. |
| Pipeline.DatasetDir | pypreprocess/conf_parser.py:87-99 | The dataset directory is the expansion of the given argument, or else of the `dataset_dir` option, and is an existing directory. Without the argument, `dataset_dir` is required and must be a string. The argument or the option string is accepted exactly when it expands to an existing directory. |
| Pipeline.OutputDir | pypreprocess/conf_parser.py:101-108 | `output_dir` is required and must be a string. The result is its expansion relative to the dataset directory. When it cannot be expanded, compilation fails with the `RuntimeError` of lines 103-107. |
| Pipeline.DirectoriesFailFirst | pypreprocess/conf_parser.py:87-139 | The directories are settled in order, and the first failure is theirs: the dataset directory, then the output directory, then the subject wildcard. Otherwise they are the three results together. |
| Pipeline.SubjectWildcard | pypreprocess/conf_parser.py:137-139 | The subject wildcard is the `subject_dirs` pattern below the dataset directory, and `*` when that option is absent. A `subject_dirs` that is not a string fails. |
| Pipeline.LoopSettings | pypreprocess/conf_parser.py:116-120 | The loop gets the output directory, and exactly the option entries whose key names a session. It gets the `anat` and `nsubjects` options as given, with no cap when `nsubjects` is absent. It gets the exclude and include lists as given, each empty when absent. |
| Pipeline.SubjectsSelected | pypreprocess/conf_parser.py:140-212 | A successful discovery returns at least one subject and one descriptor per selected directory. Each selected directory is buildable and is described by its descriptor. |
| Pipeline.SubjectsSucceeds | pypreprocess/conf_parser.py:140-212 | With both id lists usable by `in` and `len`, discovery succeeds exactly when there is a session key, at least one directory is selected, and every selected directory can be built. |
| Pipeline.SubjectsCreate | pypreprocess/conf_parser.py:144-200 | The directories discovery reports for creation are exactly the session and anatomical output directories of its descriptors that did not exist before compilation. |
| Pipeline.UnbuildableSubjectFails | pypreprocess/conf_parser.py:159-197 | A selected subject whose sessions or anatomical image cannot be found makes discovery fail. |
| Pipeline.NoSessionKeysFails | pypreprocess/conf_parser.py:140-143 | Without a session key, discovery fails before any directory is read. |
| Pipeline.PipelineComposes | pypreprocess/conf_parser.py:74-274 | Once the options and directories are settled, compilation succeeds exactly when subject discovery and parameter assembly both do. It then returns their results. |
| Pipeline.PipelineFailsEarly | pypreprocess/conf_parser.py:74-139 | A compilation whose options fail fails with their error. So does one whose directories fail, with theirs, before any subject is looked at. |
| Pipeline.PipelineFindsSubjects | pypreprocess/conf_parser.py:211-212 | A compilation that succeeds has found at least one subject. |
| Pipeline.PipelineIgnoresGlobOrder | pypreprocess/conf_parser.py:144-162 | The result does not depend on the order in which `glob` lists subject directories or images, because both listings are sorted. |

## Left out

- Reading the job file is ConfigObj's work and is not modelled. The input is the section tree ConfigObj builds, with string and string-list leaves in ConfigObj's key order.
- `os.path.abspath(jobfile)` is not modelled. The job file path is taken as given.
- `eval` is a parameter. Python expressions are not interpreted.
- `glob.glob`, `os.path.isfile`, `os.path.isdir`, `os.path.exists` and `_expand_path` are parameters. `io_utils._expand_path` is not part of this model.
- `numpy.fromstring` is modelled only for decimal literals: sign, digits, optional fraction. Exponents, `inf`, `nan`, surrounding blanks and numpy's lenient handling of malformed text are not modelled. A malformed list fails with `BadNumber`.
- Floats are mathematical reals, not IEEE doubles.
- `os.makedirs` is not performed. Each subject reports the set of directories it would create. Directories created before a later failure are not reported, since the compilation then yields only the error.
- `SubjectData` is a plain record. Its constructor's own processing lives in the `subject_data` module, which is not part of this model.
- The parameter dictionary is a record. Its keys that a stage adds sit in one optional field per stage.
- A `dataset_dir`, `output_dir`, `subject_dirs` or session value that is not a string fails with `WrongType`, where Python might fail later or differently. So does a `config` entry that is not a section.
- When `_expand_path` gives `None` for the dataset directory, the model fails with `DatasetDirNotFound`. In the code, `os.path.isdir(None)` raises.
- `Paths.PathDiff`: the parent is matched literally. The code puts it into a regular expression unescaped, so a `.` or `+` in the parent would act as a metacharacter.
- `Discovery.BuildSubject`, `Discovery.GrabSessions`, `Discovery.Cap`, `Pipeline.Subjects`, `Pipeline.Directories`, `Pipeline.GeneratePreprocPipeline` and `PreprocParams.AssembleParams` have no `ensures` of their own. Their contracts are the lemmas listed above.
- The `__main__` block and examples/spm_multimodal_fmri.py are not part of this model.
- `Sanitizer.Sanitize`: a string `slice_order` is returned at conf_parser.py:38-40, so the lower-casing at :47-48 never reaches it. It is kept exactly as written.
- `Sanitizer.Sanitize`: this is the corrected reading of conf_parser.py:60. It is the one `Sanitizer.SanitizeEntry` and the rest of the model use. The code as written is `Sanitizer.SanitizeAsWritten`, and the two differ only on a bare string under a list key (see Findings).
- `Discovery.GrabAnat`: the anatomical pattern is joined onto the subject directory at conf_parser.py:188 and tested with `os.path.isfile` at :189-190. It is never globbed.
- `Discovery.AnatOutputDirIsImageDir`: conf_parser.py:197 joins the whole image directory onto the subject's output directory. For an absolute subject directory this gives the image directory itself, not a directory named after its basename.
- `PreprocParams.AssembleSliceTiming`: when slice timing is not disabled, conf_parser.py:233-238 copies `TR`, `TA`, `slice_order` and `interleaved` with their given values, `None` only for an absent one. This still happens when a missing `TR` then switches slice timing off, so a switched-off stage can carry parameters.
- `Discovery.BareExcludeIsSubstringTest`: conf_parser.py:128 applies Python's `in` to the exclude value. On a bare string that is a substring test, not membership in a set of ids.
- `Discovery.BuildSubjectCreates`: `os.path.exists` at conf_parser.py:178 and :199 is asked of the filesystem as it was before compilation. In the code it also sees what earlier `os.makedirs` calls created. So the model may list a directory that `makedirs` already made as a parent of another; for example `out/sub01/` once `out/sub01/func` exists. The set is the output directories that were missing at the start, not the exact calls.
- `Discovery.BuildSubject`: conf_parser.py:178-179 creates the output directories of a subject's earlier sessions before the assertion at :163 fails on a later session, and those of earlier subjects before a later subject fails. The model reports no directories when compilation fails.
- `Pipeline.OptionsLookup`: it states scalar options only, when the `config` section's keys are unique, as ConfigObj guarantees. A subsection option is stated through `Sanitizer.ParseJob` and `ConfigTree.DelNonesLookup`, not key by key.

## Findings

| source | as written | input that shows it | evidently intended | confidence | as-written member | corrected member |
|---|---|---|---|---|---|---|
| pypreprocess/conf_parser.py:60 | `",".join(val)` is applied to whatever value a list key holds. ConfigObj gives a value without a comma as a bare string, and joining a string joins its characters. | `fwhm = 10` in the job file | the number 10.0, as `fwhm = 10, 10, 10` gives three tens | not executed | Sanitizer.SanitizeAsWritten (`Sanitizer.FwhmTenAsWrittenIsOneZero` shows `[1.0, 0.0]`) | Sanitizer.Sanitize (`Sanitizer.FwhmTenIsTen` shows `10.0`), used by the rest of the model |

=== FILE: config_tree.dfy ===
/**
  The configuration tree the job compiler works on, and
  `_del_nones_from_dict` (pypreprocess/conf_parser.py).

  A ConfigObj section is an ordered mapping; it is modelled as the list of
  its entries in ConfigObj's key order (scalars first, then subsections).
  Before sanitising, leaves are strings and lists of strings; sanitising
  turns some of them into booleans, `None`, numbers and lists of numbers.
 */
module ConfigTree {
  import opened Results

  /** A number as `eval` or `numpy.fromstring` produce it. */
  datatype Number = Int(i: int) | Float(f: real)

  datatype Value =
    | Null
    | Bool(b: bool)
    | Num(n: Number)
    | NumList(ns: seq<Number>)
    | Str(s: string)
    | StrList(items: seq<string>)
    | Section(entries: seq<Entry>)

  datatype Entry = Entry(key: string, val: Value)

  /** The exceptions the compiler can raise, one constructor per cause. */
  datatype Error =
    | JobFileNotFound(path: string)
      // a numeric value that `eval` or `numpy.fromstring` cannot read
    | BadNumber(key: string)
      // a value of a type the operation applied to it does not accept
    | WrongType(key: string)
    | MissingKey(key: string)
    | DatasetDirNotFound(path: string)
    | OutputDirUnexpandable(path: string)
    | NoSessions
    | NoFuncImages(subjectId: string, wildcard: string)
    | AnatNotFound(path: string)
    | NoSubjects(wildcard: string)

  function Keys(es: seq<Entry>): (ks: seq<string>)
    ensures |ks| == |es|
    ensures forall i :: 0 <= i < |es| ==> ks[i] == es[i].key
  {
    seq(|es|, i requires 0 <= i < |es| => es[i].key)
  }

  /** A Python dict never holds a key twice. */
  predicate UniqueKeys(es: seq<Entry>) {
    forall i, j :: 0 <= i < j < |es| ==> es[i].key != es[j].key
  }

  /** `section.get(key)`: the value stored under `key`, if any. */
  function Get(es: seq<Entry>, key: string): (r: Option<Value>)
    ensures r.None? <==> key !in Keys(es)
    ensures r.Some? ==> exists i :: 0 <= i < |es| && es[i] == Entry(key, r.value)
  {
    if |es| == 0 then None
    else if es[0].key == key then Some(es[0].val)
    else
      assert Keys(es) == [es[0].key] + Keys(es[1..]);
      var r := Get(es[1..], key);
      assert r.Some? ==> exists i :: 0 <= i < |es[1..]| && es[1..][i] == Entry(key, r.value);
      r
  }

  /** `section.get(key, default)`. */
  function GetOr(es: seq<Entry>, key: string, default: Value): Value {
    Get(es, key).GetOr(default)
  }

  /** Python truthiness: `bool(v)`. */
  predicate Truthy(v: Value) {
    match v
    case Null => false
    case Bool(b) => b
    case Num(Int(i)) => i != 0
    case Num(Float(f)) => f != 0.0
    case NumList(ns) => |ns| > 0
    case Str(s) => |s| > 0
    case StrList(xs) => |xs| > 0
    case Section(es) => |es| > 0
  }

  /** No `None` is stored at any depth of `v`. */
  predicate NoNones(v: Value) {
    match v
    case Section(es) => forall i :: 0 <= i < |es| ==> es[i].val != Null && NoNones(es[i].val)
    case _ => true
  }

  /**
    `_del_nones_from_dict`: removes every entry whose value is `None`, in
    this section and, recursively, in every subsection; anything that is not
    a section is returned as it is.
   */
  function DelNones(v: Value): (r: Value)
    ensures NoNones(r)
    ensures v.Section? <==> r.Section?
    ensures !v.Section? ==> r == v
    decreases v, 1
  {
    match v
    case Section(es) => Section(DelNonesIn(v, es))
    case _ => v
  }

  /** The entries of the section `parent` left by `_del_nones_from_dict`. */
  function DelNonesIn(ghost parent: Value, es: seq<Entry>): (r: seq<Entry>)
    requires forall i :: 0 <= i < |es| ==> es[i].val < parent
    ensures forall i :: 0 <= i < |r| ==> r[i].val != Null && NoNones(r[i].val)
    decreases parent, 0, |es|
  {
    if |es| == 0 then []
    else
      var rest := DelNonesIn(parent, es[1..]);
      if es[0].val == Null then rest
      else [Entry(es[0].key, DelNones(es[0].val))] + rest
  }

  /**
    Pruning works entry by entry and keeps the survivors in their order:
    pruning a concatenation is concatenating the pruned parts.
   */
  lemma {:induction false} DelNonesInConcat(parent: Value, a: seq<Entry>, b: seq<Entry>)
    requires forall i :: 0 <= i < |a| ==> a[i].val < parent
    requires forall i :: 0 <= i < |b| ==> b[i].val < parent
    ensures forall i :: 0 <= i < |a + b| ==> (a + b)[i].val < parent
    ensures DelNonesIn(parent, a + b) == DelNonesIn(parent, a) + DelNonesIn(parent, b)
    decreases |a|
  {
    ConcatBelow(parent, a, b);
    if |a| == 0 {
      assert a + b == b;
    } else {
      var ab := a + b;
      assert ab[0] == a[0] && ab[1..] == a[1..] + b;
      var head := if a[0].val == Null then [] else [Entry(a[0].key, DelNones(a[0].val))];
      assert DelNonesIn(parent, a) == head + DelNonesIn(parent, a[1..]);
      assert DelNonesIn(parent, ab) == head + DelNonesIn(parent, ab[1..]);
      DelNonesInConcat(parent, a[1..], b);
    }
  }

  /** The entries of two lists below `parent` are, concatenated, still below it. */
  lemma ConcatBelow(parent: Value, a: seq<Entry>, b: seq<Entry>)
    requires forall i :: 0 <= i < |a| ==> a[i].val < parent
    requires forall i :: 0 <= i < |b| ==> b[i].val < parent
    ensures forall i :: 0 <= i < |a + b| ==> (a + b)[i].val < parent
  {
    forall i | 0 <= i < |a + b| ensures (a + b)[i].val < parent {
      if i < |a| { assert (a + b)[i] == a[i]; } else { assert (a + b)[i] == b[i - |a|]; }
    }
  }

  /** A single entry: dropped when it holds `None`, otherwise kept with its value pruned. */
  lemma DelNonesInOne(parent: Value, e: Entry)
    requires e.val < parent
    ensures DelNonesIn(parent, [e]) == if e.val == Null then [] else [Entry(e.key, DelNones(e.val))]
  {
    assert [e][1..] == [];
  }

  /**
    After `_del_nones_from_dict`, looking a key up finds exactly what it
    found before, pruned, unless that was `None`: an explicit `None` and a
    missing key become indistinguishable.
   */
  lemma {:induction false} DelNonesLookup(parent: Value, es: seq<Entry>, key: string)
    requires forall i :: 0 <= i < |es| ==> es[i].val < parent
    requires UniqueKeys(es)
    ensures Get(DelNonesIn(parent, es), key) ==
              if Get(es, key).Some? && Get(es, key).value != Null
              then Some(DelNones(Get(es, key).value)) else None
    decreases |es|
  {
    if |es| > 0 {
      DelNonesLookup(parent, es[1..], key);
      if es[0].key == key {
        forall j | 0 <= j < |es[1..]|
          ensures Keys(es[1..])[j] != key
        {
          assert es[1..][j] == es[j + 1];
        }
      }
    }
  }

  predicate HasNonNullEntry(es: seq<Entry>, key: string) {
    exists j :: 0 <= j < |es| && es[j].key == key && es[j].val != Null
  }

  /** Every key left after pruning was in the section with a value other than `None`. */
  lemma {:induction false} DelNonesKeepsOnlyNonNullKeys(parent: Value, es: seq<Entry>)
    requires forall i :: 0 <= i < |es| ==> es[i].val < parent
    ensures forall i :: 0 <= i < |DelNonesIn(parent, es)| ==> HasNonNullEntry(es, DelNonesIn(parent, es)[i].key)
    ensures forall j :: 0 <= j < |es| && es[j].val != Null ==> es[j].key in Keys(DelNonesIn(parent, es))
    decreases |es|
  {
    if |es| > 0 {
      DelNonesKeepsOnlyNonNullKeys(parent, es[1..]);
      var rest := DelNonesIn(parent, es[1..]);
      var r := DelNonesIn(parent, es);
      forall i | 0 <= i < |r|
        ensures HasNonNullEntry(es, r[i].key)
      {
        if es[0].val != Null && i == 0 {
          assert es[0].key == r[0].key;
        } else {
          var k := if es[0].val != Null then i - 1 else i;
          assert r[i] == rest[k];
          assert HasNonNullEntry(es[1..], rest[k].key);
          var j :| 0 <= j < |es[1..]| && es[1..][j].val != Null && es[1..][j].key == rest[k].key;
          assert es[j + 1] == es[1..][j];
        }
      }
      forall j | 0 <= j < |es| && es[j].val != Null
        ensures es[j].key in Keys(r)
      {
        if j == 0 {
          assert Keys(r)[0] == es[0].key;
        } else {
          assert es[1..][j - 1] == es[j];
          var k :| 0 <= k < |rest| && Keys(rest)[k] == es[j].key;
          var i := if es[0].val != Null then k + 1 else k;
          assert r[i] == rest[k];
          assert Keys(r)[i] == es[j].key;
        }
      }
    }
  }

  /** A tree without `None` anywhere is left exactly as it is. */
  lemma {:induction false} DelNonesFixesClean(v: Value)
    requires NoNones(v)
    ensures DelNones(v) == v
    decreases v, 1
  {
    match v
    case Section(es) => DelNonesInFixesClean(v, es);
    case _ =>
  }

  lemma {:induction false} DelNonesInFixesClean(parent: Value, es: seq<Entry>)
    requires forall i :: 0 <= i < |es| ==> es[i].val < parent
    requires forall i :: 0 <= i < |es| ==> es[i].val != Null && NoNones(es[i].val)
    ensures DelNonesIn(parent, es) == es
    decreases parent, 0, |es|
  {
    if |es| > 0 {
      DelNonesFixesClean(es[0].val);
      DelNonesInFixesClean(parent, es[1..]);
      assert es == [es[0]] + es[1..];
    }
  }

  /** Pruning twice is pruning once. */
  lemma DelNonesIdempotent(v: Value)
    ensures DelNones(DelNones(v)) == DelNones(v)
  {
    DelNonesFixesClean(DelNones(v));
  }
}

=== FILE: discovery.dfy ===
/**
  The subject half of `_generate_preproc_pipeline`
  (pypreprocess/conf_parser.py): the session keys, `_ignore_subject`, the
  subject cap, and the descriptor built for every accepted subject
  directory, with its functional images, anatomical image and output
  directories.
 */
module Discovery {
  import opened Results
  import opened Text
  import opened Paths
  import opened Sorting
  import opened ConfigTree
  import opened Environment

  /** One session's functional data: a single image, or the sorted list of several. */
  datatype FuncData = Single(path: string) | Multiple(paths: seq<string>)

  function FuncPaths(fd: FuncData): seq<string> {
    match fd
    case Single(p) => [p]
    case Multiple(ps) => ps
  }

  /** The `SubjectData` handed to the preprocessing code, as a plain record. */
  datatype SubjectData = SubjectData(
    subjectId: string,
    func: seq<FuncData>,
    anat: Option<string>,
    outputDir: string,
    sessionOutputDirs: seq<string>,
    anatOutputDir: string,
    sessionIds: seq<string>)

  // ---------------------------------------------------------------------
  // Session keys: `re.match("session_(.+)_func", key)`

  const SessionPrefix: string := "session_"
  const FuncSuffix: string := "_func"

  /**
    The pattern matches `key` with a group of `n` characters: `key` starts
    with `session_`, then come `n >= 1` characters other than a line break,
    then `_func`. `re.match` anchors at the start only, so anything may follow.
   */
  predicate SessionMatchAt(key: string, n: nat) {
    && StartsWith(key, SessionPrefix)
    && 1 <= n && |SessionPrefix| + n + |FuncSuffix| <= |key|
    && '\n' !in key[|SessionPrefix|..|SessionPrefix| + n]
    && key[|SessionPrefix| + n..|SessionPrefix| + n + |FuncSuffix|] == FuncSuffix
  }

  /** The largest group length up to `n` at which the pattern matches, 0 when none does. */
  function LongestSessionMatch(key: string, n: nat): (m: nat)
    ensures m <= n
    ensures m > 0 ==> SessionMatchAt(key, m)
    ensures forall j :: m < j <= n ==> !SessionMatchAt(key, j)
  {
    if n == 0 then 0
    else if SessionMatchAt(key, n) then n
    else LongestSessionMatch(key, n - 1)
  }

  /**
    The session id of a session key: the group of the match, which, `.+`
    being greedy, is the longest one possible; `None` for other keys.
   */
  function SessionId(key: string): (r: Option<string>)
    ensures r.Some? <==> exists n: nat :: SessionMatchAt(key, n)
    ensures r.Some? ==> SessionMatchAt(key, |r.value|)
    ensures r.Some? ==> r.value == key[|SessionPrefix|..|SessionPrefix| + |r.value|]
    ensures r.Some? ==> forall n: nat :: SessionMatchAt(key, n) ==> n <= |r.value|
  {
    var m := LongestSessionMatch(key, |key|);
    if m == 0 then None else Some(key[|SessionPrefix|..|SessionPrefix| + m])
  }

  /** The session entries of the options, in key order. */
  function SessionEntries(es: seq<Entry>): (r: seq<Entry>)
    ensures |r| <= |es|
    ensures forall i :: 0 <= i < |r| ==> SessionId(r[i].key).Some? && r[i] in es
    ensures forall i :: 0 <= i < |es| && SessionId(es[i].key).Some? ==> es[i] in r
    ensures (forall i :: 0 <= i < |es| ==> SessionId(es[i].key).None?) ==> r == []
  {
    if |es| == 0 then []
    else
      var rest := SessionEntries(es[1..]);
      assert forall i :: 1 <= i < |es| ==> es[i] == es[1..][i - 1];
      if SessionId(es[0].key).Some? then [es[0]] + rest else rest
  }

  /** The entries `keep` accepts, in order. */
  function KeepEntries(es: seq<Entry>, keep: Entry -> bool): seq<Entry> {
    if |es| == 0 then []
    else if keep(es[0]) then [es[0]] + KeepEntries(es[1..], keep)
    else KeepEntries(es[1..], keep)
  }

  /** The positions of the entries `keep` accepts, in order. */
  function KeptPositions(es: seq<Entry>, keep: Entry -> bool): seq<nat> {
    if |es| == 0 then []
    else if keep(es[0]) then [0] + Shift(KeptPositions(es[1..], keep))
    else Shift(KeptPositions(es[1..], keep))
  }

  /** Every position moved one place on. */
  function Shift(idx: seq<nat>): (r: seq<nat>)
    ensures |r| == |idx|
    ensures forall k :: 0 <= k < |idx| ==> r[k] == idx[k] + 1
  {
    seq(|idx|, k requires 0 <= k < |idx| => idx[k] + 1)
  }

  /**
    The kept entries sit at strictly increasing positions, one per kept
    entry, and every accepted entry's position is among them.
   */
  lemma {:induction false} KeptPositionsSpec(es: seq<Entry>, keep: Entry -> bool)
    ensures var idx := KeptPositions(es, keep);
            var kept := KeepEntries(es, keep);
            && |idx| == |kept|
            && (forall k :: 0 <= k < |idx| ==> idx[k] < |es| && es[idx[k]] == kept[k])
            && (forall k, l :: 0 <= k < l < |idx| ==> idx[k] < idx[l])
            && (forall i :: 0 <= i < |es| && keep(es[i]) ==> i in idx)
  {
    if |es| > 0 {
      var tail := es[1..];
      KeptPositionsSpec(tail, keep);
      var rest := KeptPositions(tail, keep);
      var tailKept := KeepEntries(tail, keep);
      ShiftedPositions(es, keep, rest, tailKept);
      var shifted := Shift(rest);
      if keep(es[0]) {
        assert KeptPositions(es, keep) == [0] + shifted;
        assert KeepEntries(es, keep) == [es[0]] + tailKept;
        PositionsCons(es, shifted, tailKept);
      } else {
        assert KeptPositions(es, keep) == shifted;
        assert KeepEntries(es, keep) == tailKept;
      }
    }
  }

  /** The positions of the kept entries of `es[1..]`, moved one place on, are those entries' positions in `es`. */
  lemma ShiftedPositions(es: seq<Entry>, keep: Entry -> bool, rest: seq<nat>, tailKept: seq<Entry>)
    requires |es| > 0 && |rest| == |tailKept|
    requires forall k :: 0 <= k < |rest| ==> rest[k] < |es| - 1 && es[1..][rest[k]] == tailKept[k]
    requires forall k, l :: 0 <= k < l < |rest| ==> rest[k] < rest[l]
    requires forall i :: 0 <= i < |es| - 1 && keep(es[1..][i]) ==> i in rest
    ensures var shifted := Shift(rest);
            && (forall k :: 0 <= k < |shifted| ==> 0 < shifted[k] < |es| && es[shifted[k]] == tailKept[k])
            && (forall k, l :: 0 <= k < l < |shifted| ==> shifted[k] < shifted[l])
            && (forall i :: 1 <= i < |es| && keep(es[i]) ==> i in shifted)
  {
    var shifted := Shift(rest);
    forall k | 0 <= k < |rest|
      ensures 0 < shifted[k] < |es| && es[shifted[k]] == tailKept[k]
    {
      assert es[shifted[k]] == es[1..][rest[k]];
    }
    forall i | 1 <= i < |es| && keep(es[i])
      ensures i in shifted
    {
      assert es[1..][i - 1] == es[i];
      var k :| 0 <= k < |rest| && rest[k] == i - 1;
      assert shifted[k] == i;
    }
  }

  /** Putting position 0 and the first entry in front keeps the positions increasing and matched. */
  lemma PositionsCons(es: seq<Entry>, shifted: seq<nat>, tailKept: seq<Entry>)
    requires |es| > 0 && |shifted| == |tailKept|
    requires forall k :: 0 <= k < |shifted| ==> 0 < shifted[k] < |es| && es[shifted[k]] == tailKept[k]
    requires forall k, l :: 0 <= k < l < |shifted| ==> shifted[k] < shifted[l]
    ensures var idx := [0] + shifted;
            var kept := [es[0]] + tailKept;
            && (forall k :: 0 <= k < |idx| ==> idx[k] < |es| && es[idx[k]] == kept[k])
            && (forall k, l :: 0 <= k < l < |idx| ==> idx[k] < idx[l])
  {
  }

  /** Whether an option entry is a session entry. */
  function IsSessionEntry(): Entry -> bool {
    (e: Entry) => SessionId(e.key).Some?
  }

  lemma {:induction false} SessionEntriesAreKept(es: seq<Entry>)
    ensures SessionEntries(es) == KeepEntries(es, IsSessionEntry())
  {
    if |es| > 0 {
      SessionEntriesAreKept(es[1..]);
    }
  }

  /**
    The session entries sit at strictly increasing positions among the
    options, one per session entry, covering every session key: they are
    the session keys' entries in key order, each once.
   */
  lemma SessionEntriesInKeyOrder(es: seq<Entry>)
    ensures var idx := KeptPositions(es, IsSessionEntry());
            var sessions := SessionEntries(es);
            && |idx| == |sessions|
            && (forall k :: 0 <= k < |idx| ==> idx[k] < |es| && es[idx[k]] == sessions[k])
            && (forall k, l :: 0 <= k < l < |idx| ==> idx[k] < idx[l])
            && (forall i :: 0 <= i < |es| && SessionId(es[i].key).Some? ==> i in idx)
  {
    var keep := IsSessionEntry();
    SessionEntriesAreKept(es);
    KeptPositionsSpec(es, keep);
    forall i | 0 <= i < |es| && SessionId(es[i].key).Some?
      ensures i in KeptPositions(es, keep)
    {
      assert keep(es[i]);
    }
  }

  /** The session ids, one per session entry, in the same order. */
  function SessionIds(sessions: seq<Entry>): (ids: seq<string>)
    requires forall i :: 0 <= i < |sessions| ==> SessionId(sessions[i].key).Some?
    ensures |ids| == |sessions|
    ensures forall i :: 0 <= i < |sessions| ==> Some(ids[i]) == SessionId(sessions[i].key)
  {
    seq(|sessions|, i requires 0 <= i < |sessions| => SessionId(sessions[i].key).value)
  }

  // ---------------------------------------------------------------------
  // `_ignore_subject` and the subject cap

  const ExcludeKey: string := "exclude_these_subject_ids"
  const IncludeKey: string := "include_only_these_subject_ids"

  /** Values Python's `in` and `len` accept: lists, strings and sections. */
  predicate IsContainer(v: Value) {
    v.StrList? || v.Str? || v.NumList? || v.Section?
  }

  /**
    Python's `id in v`: list membership; for a bare string, a substring
    test; for a section, a key test. A list of numbers holds no string.
   */
  predicate InContainer(id: string, v: Value) {
    match v
    case StrList(xs) => id in xs
    case Str(s) => IsSubstring(id, s)
    case Section(es) => id in Keys(es)
    case _ => false
  }

  /** Python's `len(v)`. */
  function ContainerSize(v: Value): nat {
    match v
    case StrList(xs) => |xs|
    case Str(s) => |s|
    case NumList(ns) => |ns|
    case Section(es) => |es|
    case _ => 0
  }

  /** A subject is left out when excluded, or when an include list is given and omits it. */
  predicate Ignored(id: string, excludeIds: Value, includeIds: Value) {
    InContainer(id, excludeIds) || (ContainerSize(includeIds) > 0 && !InContainer(id, includeIds))
  }

  /**
    `_ignore_subject(subject_id)`: exclusion is tested first and wins; the
    include list is looked at only for a subject not excluded. `in` or `len`
    on a boolean or a number raises.
   */
  function IgnoreSubject(id: string, excludeIds: Value, includeIds: Value): (r: Result<bool, Error>)
    ensures IsContainer(excludeIds) && IsContainer(includeIds) ==> r == Ok(Ignored(id, excludeIds, includeIds))
    ensures !IsContainer(excludeIds) ==> r == Err(WrongType(ExcludeKey))
    ensures IsContainer(excludeIds) && InContainer(id, excludeIds) ==> r == Ok(true)
    ensures IsContainer(excludeIds) && !InContainer(id, excludeIds) && !IsContainer(includeIds) ==>
              r == Err(WrongType(IncludeKey))
  {
    if !IsContainer(excludeIds) then Err(WrongType(ExcludeKey))
    else if InContainer(id, excludeIds) then Ok(true)
    else if !IsContainer(includeIds) then Err(WrongType(IncludeKey))
    else Ok(ContainerSize(includeIds) > 0 && !InContainer(id, includeIds))
  }

  /** A single excluded id given without a comma is a string, so `in` tests substrings: "sub10" excludes "sub1". */
  lemma BareExcludeIsSubstringTest()
    ensures IgnoreSubject("sub1", Str("sub10"), StrList([])) == Ok(true)
  {
    assert StartsWith("sub10", "sub1");
  }

  /** `subject_count == nsubjects`, with Python's `==` between an int and the option's value. */
  predicate CapReached(count: nat, nsubjects: Option<Value>) {
    match nsubjects
    case Some(Num(Int(n))) => count == n
    case Some(Num(Float(f))) => count as real == f
    case Some(Bool(b)) => count == if b then 1 else 0
    case _ => false
  }

  /** The number of accepted subjects at which the loop stops, if any. */
  function Cap(nsubjects: Option<Value>): Option<nat> {
    match nsubjects
    case Some(Num(Int(n))) => if n >= 0 then Some(n) else None
    case Some(Num(Float(f))) => if f >= 0.0 && f.Floor as real == f then Some(f.Floor) else None
    case Some(Bool(b)) => Some(if b then 1 else 0)
    case _ => None
  }

  /** `count` has not gone past the cap, if there is one. */
  predicate WithinCap(count: nat, nsubjects: Option<Value>) {
    Cap(nsubjects).None? || count <= Cap(nsubjects).value
  }

  /** The loop starts within the cap. */
  lemma StartsWithinCap(nsubjects: Option<Value>)
    ensures WithinCap(0, nsubjects)
  {
  }

  /** The loop's `==` test succeeds at exactly one count, the cap, when there is one, and never otherwise. */
  lemma CapIsReachedCount(nsubjects: Option<Value>)
    ensures forall count: nat :: CapReached(count, nsubjects) <==> Cap(nsubjects) == Some(count)
  {
  }

  // ---------------------------------------------------------------------
  // One subject

  /** The options the subject loop reads, resolved once before it starts. */
  datatype Settings = Settings(
    outputDir: string,
    sessions: seq<Entry>,
    anat: Option<Value>,
    nsubjects: Option<Value>,
    excludeIds: Value,
    includeIds: Value)

  predicate ValidSettings(st: Settings) {
    forall i :: 0 <= i < |st.sessions| ==> SessionId(st.sessions[i].key).Some?
  }

  /**
    Lines 172-177: the session's output directory mirrors the basename of
    its image directory under the subject's output directory, unless the two
    basenames agree.
   */
  function SessionOutputDir(subjectOutputDir: string, sessionDir: string): string {
    if Basename(sessionDir) != Basename(subjectOutputDir)
    then Join(subjectOutputDir, Basename(sessionDir))
    else subjectOutputDir
  }

  /** The sorted matches of a session's pattern below the subject directory. */
  function SessionMatches(subjectDir: string, pattern: string, fs: FileSystem): (m: seq<string>)
    ensures Sorted(m)
    ensures multiset(m) == multiset(fs.glob(Join(subjectDir, pattern)))
  {
    Sort(fs.glob(Join(subjectDir, pattern)))
  }

  /**
    One session of one subject: its functional data and output directory.
    A pattern that matches nothing is fatal; a single match is kept bare.
   */
  function GrabSession(subjectDir: string, subjectId: string, subjectOutputDir: string, session: Entry, fs: FileSystem)
    : (r: Result<(FuncData, string), Error>)
    ensures !session.val.Str? ==> r == Err(WrongType(session.key))
    ensures session.val.Str? ==>
              var matches := SessionMatches(subjectDir, session.val.s, fs);
              && (r.Ok? <==> |matches| > 0)
              && (r.Err? ==> r.error == NoFuncImages(subjectId, Join(subjectDir, session.val.s)))
              && (r.Ok? ==> FuncPaths(r.value.0) == matches)
              && (r.Ok? ==> (r.value.0.Single? <==> |matches| == 1))
              && (r.Ok? ==> r.value.1 == SessionOutputDir(subjectOutputDir, Dirname(matches[0])))
  {
    match session.val
    case Str(pattern) =>
      var wildcard := Join(subjectDir, pattern);
      var matches := SessionMatches(subjectDir, pattern, fs);
      if |matches| == 0 then Err(NoFuncImages(subjectId, wildcard))
      else
        var func := if |matches| == 1 then Single(matches[0]) else Multiple(matches);
        Ok((func, SessionOutputDir(subjectOutputDir, Dirname(matches[0]))))
    case _ => Err(WrongType(session.key))
  }

  /** One session's functional data and output directory, as `GrabSession` yields them for a fixed subject. */
  type SessionGrabber = Entry -> Result<(FuncData, string), Error>

  /** Every session in order through `grab`; the first failure aborts. */
  function GrabEach(sessions: seq<Entry>, grab: SessionGrabber): (r: Result<(seq<FuncData>, seq<string>), Error>)
    ensures r.Ok? <==> forall i :: 0 <= i < |sessions| ==> grab(sessions[i]).Ok?
    ensures r.Ok? ==> |r.value.0| == |sessions| && |r.value.1| == |sessions|
    ensures r.Ok? ==> forall i :: 0 <= i < |sessions| ==> grab(sessions[i]) == Ok((r.value.0[i], r.value.1[i]))
  {
    if |sessions| == 0 then Ok(([], []))
    else
      var first := grab(sessions[0]);
      var rest := GrabEach(sessions[1..], grab);
      assert forall i :: 1 <= i < |sessions| ==> sessions[i] == sessions[1..][i - 1];
      if first.Err? then Err(first.error)
      else if rest.Err? then Err(rest.error)
      else Ok(([first.value.0] + rest.value.0, [first.value.1] + rest.value.1))
  }

  /** `GrabSession` for one subject, as the session loop of lines 154-180 applies it. */
  function GrabberFor(subjectDir: string, subjectId: string, subjectOutputDir: string, fs: FileSystem): SessionGrabber {
    e => GrabSession(subjectDir, subjectId, subjectOutputDir, e, fs)
  }

  /** All sessions of one subject, in session order; the first failure aborts. */
  function GrabSessions(subjectDir: string, subjectId: string, subjectOutputDir: string, sessions: seq<Entry>, fs: FileSystem)
    : Result<(seq<FuncData>, seq<string>), Error>
  {
    GrabEach(sessions, GrabberFor(subjectDir, subjectId, subjectOutputDir, fs))
  }

  /**
    Lines 186-194: the anatomical image, when the option is set, is the
    option joined onto the subject directory and must be a file (it is not
    globbed); its directory is returned with it. Unset, there is no image
    and the directory is empty.
   */
  function GrabAnat(subjectDir: string, anat: Option<Value>, fs: FileSystem): (r: Result<(Option<string>, string), Error>)
    ensures anat.None? || anat == Some(Null) ==> r == Ok((None, ""))
    ensures anat.Some? && anat.value.Str? ==>
              var path := Join(subjectDir, anat.value.s);
              r == if fs.isFile(path) then Ok((Some(path), Dirname(path))) else Err(AnatNotFound(path))
    ensures anat.Some? && anat.value != Null && !anat.value.Str? ==> r == Err(WrongType("anat"))
  {
    match anat
    case None => Ok((None, ""))
    case Some(Null) => Ok((None, ""))
    case Some(Str(a)) =>
      var path := Join(subjectDir, a);
      if fs.isFile(path) then Ok((Some(path), Dirname(path))) else Err(AnatNotFound(path))
    case Some(_) => Err(WrongType("anat"))
  }

  /**
    What the descriptor records for its `i`-th session, stated against the
    subject id rather than the output directory's basename: the functional
    data holds exactly the sorted matches, bare when there is one, and the
    output directory is the subject's own when the image directory is named
    like the subject, and a sub-directory named like the image directory otherwise.
   */
  predicate SessionRecorded(subjectDir: string, s: SubjectData, pattern: string, i: nat, fs: FileSystem)
    requires i < |s.func| && i < |s.sessionOutputDirs|
  {
    var matches := SessionMatches(subjectDir, pattern, fs);
    && |matches| > 0
    && FuncPaths(s.func[i]) == matches
    && (s.func[i].Single? <==> |matches| == 1)
    && var name := Basename(Dirname(matches[0]));
       s.sessionOutputDirs[i] == if name == s.subjectId then s.outputDir else Join(s.outputDir, name)
  }

  /** The anatomical option can be honoured: unset, or naming an existing file below the subject directory. */
  predicate AnatAvailable(subjectDir: string, anat: Option<Value>, fs: FileSystem) {
    match anat
    case None => true
    case Some(Null) => true
    case Some(Str(a)) => fs.isFile(Join(subjectDir, a))
    case Some(_) => false
  }

  /** What the descriptor records about the anatomical image and its output directory. */
  predicate AnatRecorded(subjectDir: string, anat: Option<Value>, s: SubjectData) {
    match anat
    case Some(Str(a)) =>
      && s.anat == Some(Join(subjectDir, a))
      && s.anatOutputDir == Join(s.outputDir, Dirname(Join(subjectDir, a)))
    case _ => s.anat.None? && s.anatOutputDir == Join(s.outputDir, "")
  }

  /** Every session pattern is a string matching at least one image, and the anatomical option can be honoured. */
  predicate Buildable(subjectDir: string, st: Settings, fs: FileSystem) {
    && (forall i :: 0 <= i < |st.sessions| ==>
          st.sessions[i].val.Str? && |SessionMatches(subjectDir, st.sessions[i].val.s, fs)| > 0)
    && AnatAvailable(subjectDir, st.anat, fs)
  }

  /** The descriptor `s` is the one lines 148-200 build for `subjectDir`. */
  predicate Describes(subjectDir: string, st: Settings, fs: FileSystem, s: SubjectData)
    requires ValidSettings(st)
  {
    && s.subjectId == Basename(subjectDir)
    && s.outputDir == Join(st.outputDir, s.subjectId)
    && s.sessionIds == SessionIds(st.sessions)
    && |s.func| == |st.sessions| && |s.sessionOutputDirs| == |st.sessions|
    && (forall i :: 0 <= i < |st.sessions| ==>
          st.sessions[i].val.Str? && SessionRecorded(subjectDir, s, st.sessions[i].val.s, i, fs))
    && AnatRecorded(subjectDir, st.anat, s)
  }

  /** The sessions of a subject can all be grabbed exactly when each pattern is a string with a match. */
  lemma GrabSessionsSucceeds(subjectDir: string, subjectId: string, subjectOutputDir: string, sessions: seq<Entry>, fs: FileSystem)
    ensures GrabSessions(subjectDir, subjectId, subjectOutputDir, sessions, fs).Ok? <==>
              forall i :: 0 <= i < |sessions| ==>
                sessions[i].val.Str? && |SessionMatches(subjectDir, sessions[i].val.s, fs)| > 0
  {
    var grab := GrabberFor(subjectDir, subjectId, subjectOutputDir, fs);
    forall i | 0 <= i < |sessions|
      ensures grab(sessions[i]).Ok? <==>
                sessions[i].val.Str? && |SessionMatches(subjectDir, sessions[i].val.s, fs)| > 0
    {
      assert grab(sessions[i]) == GrabSession(subjectDir, subjectId, subjectOutputDir, sessions[i], fs);
    }
  }

  /** The anatomical image is found exactly when the option can be honoured. */
  lemma GrabAnatSucceeds(subjectDir: string, anat: Option<Value>, fs: FileSystem)
    ensures GrabAnat(subjectDir, anat, fs).Ok? <==> AnatAvailable(subjectDir, anat, fs)
  {
  }

  /** The grabbed sessions, put in a descriptor, are recorded as `SessionRecorded` says. */
  lemma {:induction false} SessionsRecorded(subjectDir: string, st: Settings, fs: FileSystem, s: SubjectData)
    requires s.subjectId == Basename(subjectDir)
    requires s.outputDir == Join(st.outputDir, s.subjectId)
    requires GrabSessions(subjectDir, s.subjectId, s.outputDir, st.sessions, fs) == Ok((s.func, s.sessionOutputDirs))
    ensures |s.func| == |st.sessions| && |s.sessionOutputDirs| == |st.sessions|
    ensures forall i :: 0 <= i < |st.sessions| ==>
              st.sessions[i].val.Str? && SessionRecorded(subjectDir, s, st.sessions[i].val.s, i, fs)
  {
    BasenameOfJoin(st.outputDir, s.subjectId);
    var grab := GrabberFor(subjectDir, s.subjectId, s.outputDir, fs);
    forall i | 0 <= i < |st.sessions|
      ensures st.sessions[i].val.Str? && SessionRecorded(subjectDir, s, st.sessions[i].val.s, i, fs)
    {
      assert grab(st.sessions[i]) == GrabSession(subjectDir, s.subjectId, s.outputDir, st.sessions[i], fs);
    }
  }

  /**
    The descriptor of one subject directory (lines 148-200) and the output
    directories `os.makedirs` is asked to create for it at lines 202-209
    (those that do not exist yet). `BuildSubjectSpec` states what it yields.
   */
  function BuildSubject(subjectDir: string, st: Settings, fs: FileSystem): Result<(SubjectData, set<string>), Error>
    requires ValidSettings(st)
  {
    var id := Basename(subjectDir);
    var out := Join(st.outputDir, id);
    var sessions := GrabSessions(subjectDir, id, out, st.sessions, fs);
    var anat := GrabAnat(subjectDir, st.anat, fs);
    if sessions.Err? then Err(sessions.error)
    else if anat.Err? then Err(anat.error)
    else
      var anatOut := Join(out, anat.value.1);
      var s := SubjectData(id, sessions.value.0, anat.value.0, out, sessions.value.1, anatOut, SessionIds(st.sessions));
      Ok((s, set d | d in sessions.value.1 + [anatOut] && !fs.pathExists(d)))
  }

  /**
    A subject directory yields a descriptor exactly when every session
    pattern matches and the anatomical image is found; the descriptor is the
    one `Describes` characterises, and the directories to create are its
    output directories that do not exist yet.
   */
  lemma BuildSubjectSpec(subjectDir: string, st: Settings, fs: FileSystem)
    requires ValidSettings(st)
    ensures var r := BuildSubject(subjectDir, st, fs);
            && (r.Ok? <==> Buildable(subjectDir, st, fs))
            && (r.Ok? ==> Describes(subjectDir, st, fs, r.value.0))
            && (r.Ok? ==> forall d :: d in r.value.1 <==>
                  (d in r.value.0.sessionOutputDirs || d == r.value.0.anatOutputDir) && !fs.pathExists(d))
  {
    BuildSubjectOk(subjectDir, st, fs);
    var r := BuildSubject(subjectDir, st, fs);
    if r.Ok? {
      var id := Basename(subjectDir);
      var out := Join(st.outputDir, id);
      var sessions := GrabSessions(subjectDir, id, out, st.sessions, fs);
      var anat := GrabAnat(subjectDir, st.anat, fs);
      assert sessions.Ok? && anat.Ok?;
      var s := r.value.0;
      assert s == SubjectData(id, sessions.value.0, anat.value.0, out, sessions.value.1,
                              Join(out, anat.value.1), SessionIds(st.sessions));
      SessionsRecorded(subjectDir, st, fs, s);
      assert AnatRecorded(subjectDir, st.anat, s);
      BuildSubjectCreates(subjectDir, st, fs);
    }
  }

  /** The `r.Ok? <==> Buildable` half of `BuildSubjectSpec`. */
  lemma BuildSubjectOk(subjectDir: string, st: Settings, fs: FileSystem)
    requires ValidSettings(st)
    ensures BuildSubject(subjectDir, st, fs).Ok? <==> Buildable(subjectDir, st, fs)
  {
    var id := Basename(subjectDir);
    var out := Join(st.outputDir, id);
    GrabSessionsSucceeds(subjectDir, id, out, st.sessions, fs);
    GrabAnatSucceeds(subjectDir, st.anat, fs);
  }

  /** The directories to create for a subject are its output directories that do not exist yet. */
  lemma BuildSubjectCreates(subjectDir: string, st: Settings, fs: FileSystem)
    requires ValidSettings(st)
    ensures var r := BuildSubject(subjectDir, st, fs);
            r.Ok? ==> forall d :: d in r.value.1 <==>
                        (d in r.value.0.sessionOutputDirs || d == r.value.0.anatOutputDir) && !fs.pathExists(d)
  {
    var id := Basename(subjectDir);
    var out := Join(st.outputDir, id);
    var sessions := GrabSessions(subjectDir, id, out, st.sessions, fs);
    var anat := GrabAnat(subjectDir, st.anat, fs);
    if sessions.Ok? && anat.Ok? {
      var r := BuildSubject(subjectDir, st, fs);
      var anatOut := Join(out, anat.value.1);
      var dirs := sessions.value.1 + [anatOut];
      assert r.value.1 == set d | d in dirs && !fs.pathExists(d);
      assert r.value.0.sessionOutputDirs == sessions.value.1 && r.value.0.anatOutputDir == anatOut;
      forall d ensures d in r.value.1 <==> (d in sessions.value.1 || d == anatOut) && !fs.pathExists(d) {
        assert d in dirs <==> d in sessions.value.1 || d == anatOut;
      }
    }
  }

  /**
    With an anatomical image configured below an absolute subject directory,
    `os.path.join(subject_output_dir, anat_dir)` is `anat_dir` itself: the
    anatomical output directory is the image's own directory, outside the
    subject's output directory.
   */
  lemma AnatOutputDirIsImageDir(subjectDir: string, st: Settings, fs: FileSystem)
    requires ValidSettings(st)
    requires IsAbsolute(subjectDir)
    requires st.anat.Some? && st.anat.value.Str?
    requires BuildSubject(subjectDir, st, fs).Ok?
    ensures var s := BuildSubject(subjectDir, st, fs).value.0;
            s.anat == Some(Join(subjectDir, st.anat.value.s)) && s.anatOutputDir == Dirname(s.anat.value)
  {
    BuildSubjectSpec(subjectDir, st, fs);
    var s := BuildSubject(subjectDir, st, fs).value.0;
    var path := Join(subjectDir, st.anat.value.s);
    assert AnatRecorded(subjectDir, st.anat, s);
    assert IsAbsolute(path);
    DirnameOfAbsolute(path);
  }

  // ---------------------------------------------------------------------
  // The subject loop (lines 144-209)

  /** The descriptor and directories to create for one accepted subject directory. */
  type Builder = string -> Result<(SubjectData, set<string>), Error>

  /**
    The loop over the sorted candidate directories: stop once `count`
    reaches the cap, skip ignored subjects, build the others with `build`
    (`BuildSubject` under fixed settings); the first failure aborts the
    whole loop.
   */
  function SubjectLoop(cands: seq<string>, count: nat, st: Settings, build: Builder)
    : (r: Result<(seq<SubjectData>, set<string>), Error>)
    ensures r.Ok? ==> |r.value.0| <= |cands|
    decreases |cands|
  {
    if |cands| == 0 || CapReached(count, st.nsubjects) then Ok(([], {}))
    else
      var ignore := IgnoreSubject(Basename(cands[0]), st.excludeIds, st.includeIds);
      if ignore.Err? then Err(ignore.error)
      else if ignore.value then SubjectLoop(cands[1..], count, st, build)
      else
        var built := build(cands[0]);
        var rest := SubjectLoop(cands[1..], count + 1, st, build);
        if built.Err? then Err(built.error)
        else if rest.Err? then Err(rest.error)
        else Ok(([built.value.0] + rest.value.0, built.value.1 + rest.value.1))
  }

  /** The candidates whose basename is not ignored, in order (a reference definition). */
  function KeptDirs(cands: seq<string>, excludeIds: Value, includeIds: Value): (r: seq<string>)
    ensures |r| <= |cands|
  {
    if |cands| == 0 then []
    else if Ignored(Basename(cands[0]), excludeIds, includeIds) then KeptDirs(cands[1..], excludeIds, includeIds)
    else [cands[0]] + KeptDirs(cands[1..], excludeIds, includeIds)
  }

  /** The first `cap` elements, or all of them when there is no cap. */
  function Take(xs: seq<string>, cap: Option<nat>): (r: seq<string>)
    ensures cap.None? ==> r == xs
    ensures cap.Some? ==> r == xs[..if cap.value < |xs| then cap.value else |xs|]
  {
    match cap
    case None => xs
    case Some(n) => if n < |xs| then xs[..n] else xs
  }

  /** The cap left once `count` subjects are accepted (none past the cap). */
  function Remaining(cap: Option<nat>, count: nat): Option<nat> {
    match cap
    case None => None
    case Some(n) => Some(if count <= n then n - count else 0)
  }

  /** The candidates the loop builds, starting with `count` subjects already accepted. */
  function Selected(cands: seq<string>, count: nat, st: Settings): seq<string> {
    Take(KeptDirs(cands, st.excludeIds, st.includeIds), Remaining(Cap(st.nsubjects), count))
  }

  /** How the selection unfolds along the candidate list. */
  lemma SelectedStep(cands: seq<string>, count: nat, st: Settings)
    requires |cands| > 0
    requires WithinCap(count, st.nsubjects)
    ensures CapReached(count, st.nsubjects) ==> Selected(cands, count, st) == []
    ensures !CapReached(count, st.nsubjects) && Ignored(Basename(cands[0]), st.excludeIds, st.includeIds) ==>
              Selected(cands, count, st) == Selected(cands[1..], count, st)
    ensures !CapReached(count, st.nsubjects) && !Ignored(Basename(cands[0]), st.excludeIds, st.includeIds) ==>
              && (Cap(st.nsubjects).None? || count + 1 <= Cap(st.nsubjects).value)
              && Selected(cands, count, st) == [cands[0]] + Selected(cands[1..], count + 1, st)
  {
  }

  /** A candidate is kept exactly when its basename is not ignored. */
  lemma {:induction false} KeptDirsMembers(cands: seq<string>, excludeIds: Value, includeIds: Value)
    ensures forall d :: d in KeptDirs(cands, excludeIds, includeIds) <==>
              d in cands && !Ignored(Basename(d), excludeIds, includeIds)
    decreases |cands|
  {
    if |cands| > 0 {
      KeptDirsMembers(cands[1..], excludeIds, includeIds);
      assert cands == [cands[0]] + cands[1..];
    }
  }

  /** The loop succeeds exactly when every selected candidate builds. */
  lemma {:induction false} SubjectLoopSucceeds(cands: seq<string>, count: nat, st: Settings, build: Builder)
    requires IsContainer(st.excludeIds) && IsContainer(st.includeIds)
    requires WithinCap(count, st.nsubjects)
    ensures var sel := Selected(cands, count, st);
            SubjectLoop(cands, count, st, build).Ok? <==> forall k :: 0 <= k < |sel| ==> build(sel[k]).Ok?
    decreases |cands|
  {
    if |cands| > 0 {
      SelectedStep(cands, count, st);
      if !CapReached(count, st.nsubjects) {
        var id := Basename(cands[0]);
        if Ignored(id, st.excludeIds, st.includeIds) {
          SubjectLoopSucceeds(cands[1..], count, st, build);
          assert IgnoreSubject(id, st.excludeIds, st.includeIds) == Ok(true);
        } else {
          assert IgnoreSubject(id, st.excludeIds, st.includeIds) == Ok(false);
          SubjectLoopSucceeds(cands[1..], count + 1, st, build);
          AllBuildOfCons(cands[0], Selected(cands[1..], count + 1, st), build);
        }
      }
    }
  }

  /** Every element of `[head] + rest` builds exactly when `head` and every element of `rest` do. */
  lemma AllBuildOfCons(head: string, rest: seq<string>, build: Builder)
    ensures (forall k :: 0 <= k < |[head] + rest| ==> build(([head] + rest)[k]).Ok?) <==>
            build(head).Ok? && forall k :: 0 <= k < |rest| ==> build(rest[k]).Ok?
  {
    var sel := [head] + rest;
    if build(head).Ok? && forall k :: 0 <= k < |rest| ==> build(rest[k]).Ok? {
      forall k | 0 <= k < |sel|
        ensures build(sel[k]).Ok?
      {
        if k > 0 {
          assert sel[k] == rest[k - 1];
        }
      }
    }
    if forall k :: 0 <= k < |sel| ==> build(sel[k]).Ok? {
      assert build(sel[0]).Ok?;
      forall k | 0 <= k < |rest|
        ensures build(rest[k]).Ok?
      {
        assert sel[k + 1] == rest[k];
      }
    }
  }

  /**
    The loop builds exactly the first `cap` candidates that are not
    ignored, in sorted order: one descriptor per selected directory.
   */
  lemma {:induction false} SubjectLoopSelects(cands: seq<string>, count: nat, st: Settings, build: Builder)
    requires IsContainer(st.excludeIds) && IsContainer(st.includeIds)
    requires WithinCap(count, st.nsubjects)
    ensures var sel := Selected(cands, count, st);
            var r := SubjectLoop(cands, count, st, build);
            && (r.Ok? ==> |r.value.0| == |sel|)
            && (r.Ok? ==> forall k :: 0 <= k < |sel| ==> build(sel[k]).Ok? && r.value.0[k] == build(sel[k]).value.0)
    decreases |cands|
  {
    if |cands| > 0 {
      SelectedStep(cands, count, st);
      if !CapReached(count, st.nsubjects) {
        var id := Basename(cands[0]);
        if Ignored(id, st.excludeIds, st.includeIds) {
          SubjectLoopSelects(cands[1..], count, st, build);
          assert IgnoreSubject(id, st.excludeIds, st.includeIds) == Ok(true);
        } else {
          assert IgnoreSubject(id, st.excludeIds, st.includeIds) == Ok(false);
          SubjectLoopSelects(cands[1..], count + 1, st, build);
          var r := SubjectLoop(cands, count, st, build);
          if r.Ok? {
            var rest := SubjectLoop(cands[1..], count + 1, st, build);
            DescriptorsOfCons(cands[0], Selected(cands[1..], count + 1, st),
                              build(cands[0]).value.0, rest.value.0, build);
          }
        }
      }
    }
  }

  /** The directories `build` asks to create for some directory of `dirs`. */
  predicate CreatedFor(d: string, dirs: seq<string>, build: Builder) {
    exists k :: 0 <= k < |dirs| && build(dirs[k]).Ok? && d in build(dirs[k]).value.1
  }

  /**
    The directories a successful loop asks to create are exactly those its
    selected subjects ask for, taken together.
   */
  lemma {:induction false} SubjectLoopCreates(cands: seq<string>, count: nat, st: Settings, build: Builder)
    requires IsContainer(st.excludeIds) && IsContainer(st.includeIds)
    requires WithinCap(count, st.nsubjects)
    ensures var r := SubjectLoop(cands, count, st, build);
            r.Ok? ==> forall d :: d in r.value.1 <==> CreatedFor(d, Selected(cands, count, st), build)
    decreases |cands|
  {
    if |cands| > 0 {
      SelectedStep(cands, count, st);
      if !CapReached(count, st.nsubjects) {
        var id := Basename(cands[0]);
        if Ignored(id, st.excludeIds, st.includeIds) {
          SubjectLoopCreates(cands[1..], count, st, build);
          assert IgnoreSubject(id, st.excludeIds, st.includeIds) == Ok(true);
        } else {
          assert IgnoreSubject(id, st.excludeIds, st.includeIds) == Ok(false);
          SubjectLoopCreates(cands[1..], count + 1, st, build);
          var r := SubjectLoop(cands, count, st, build);
          if r.Ok? {
            var rest := SubjectLoop(cands[1..], count + 1, st, build);
            assert r.value.1 == build(cands[0]).value.1 + rest.value.1;
            CreatedForCons(cands[0], Selected(cands[1..], count + 1, st), build);
          }
        }
      }
    }
  }

  /** What `[head] + rest` asks to create is what `head` asks for and what `rest` asks for. */
  lemma CreatedForCons(head: string, rest: seq<string>, build: Builder)
    requires build(head).Ok?
    ensures forall d :: CreatedFor(d, [head] + rest, build) <==> d in build(head).value.1 || CreatedFor(d, rest, build)
  {
    var dirs := [head] + rest;
    forall d ensures CreatedFor(d, dirs, build) <==> d in build(head).value.1 || CreatedFor(d, rest, build) {
      if CreatedFor(d, dirs, build) {
        var k :| 0 <= k < |dirs| && build(dirs[k]).Ok? && d in build(dirs[k]).value.1;
        if k > 0 {
          assert dirs[k] == rest[k - 1];
        }
      }
      if CreatedFor(d, rest, build) {
        var k :| 0 <= k < |rest| && build(rest[k]).Ok? && d in build(rest[k]).value.1;
        assert dirs[k + 1] == rest[k];
      }
      if d in build(head).value.1 {
        assert dirs[0] == head;
      }
    }
  }

  /** Descriptors built one per directory stay so when a directory and its descriptor are put in front. */
  lemma DescriptorsOfCons(head: string, rest: seq<string>, d: SubjectData, ds: seq<SubjectData>, build: Builder)
    requires build(head).Ok? && build(head).value.0 == d
    requires |ds| == |rest|
    requires forall k :: 0 <= k < |rest| ==> build(rest[k]).Ok? && ds[k] == build(rest[k]).value.0
    ensures |[d] + ds| == |[head] + rest|
    ensures forall k :: 0 <= k < |[head] + rest| ==>
              build(([head] + rest)[k]).Ok? && ([d] + ds)[k] == build(([head] + rest)[k]).value.0
  {
    var sel := [head] + rest;
    var out := [d] + ds;
    forall k | 0 <= k < |sel|
      ensures build(sel[k]).Ok? && out[k] == build(sel[k]).value.0
    {
      if k > 0 {
        assert sel[k] == rest[k - 1] && out[k] == ds[k - 1];
      }
    }
  }
}

=== FILE: environment.dfy ===
/**
  What the job compiler asks of the world outside it, as plain values:
  `glob.glob`, `os.path.isfile`, `os.path.isdir`, `os.path.exists` and
  `_expand_path` (from the `io_utils` module, which is not part of this
  model). Every question gets the same answer for the whole compilation.
 */
module Environment {
  import opened Results

  datatype FileSystem = FileSystem(
    // `glob.glob(pattern)`, in whatever order the filesystem lists the matches
    glob: string -> seq<string>,
    isFile: string -> bool,
    isDir: string -> bool,
    pathExists: string -> bool,
    // `_expand_path(path, relative_to)`: `None` when no usable path results
    expandPath: (string, Option<string>) -> Option<string>)
}

=== FILE: literals.dfy ===
/**
  Reading a comma-separated list of decimal literals, the part of
  `numpy.fromstring(text, sep=",", dtype=...)` the job compiler relies on.
  A literal is an optional sign followed by digits; with the float dtype it
  may also carry a fractional part (`2`, `-1.5`, `.5`, `3.`).
 */
module Literals {
  import opened Results
  import opened Text
  import opened ConfigTree

  predicate IsDigit(c: char) {
    '0' <= c <= '9'
  }

  predicate AllDigits(s: string) {
    forall k :: 0 <= k < |s| ==> IsDigit(s[k])
  }

  function DigitValue(c: char): nat
    requires IsDigit(c)
  {
    c as int - '0' as int
  }

  /** The natural number a string of decimal digits denotes. */
  function DigitsValue(s: string): nat
    requires AllDigits(s)
  {
    if |s| == 0 then 0
    else DigitsValue(s[..|s| - 1]) * 10 + DigitValue(s[|s| - 1])
  }

  function Pow10(k: nat): (r: nat)
    ensures r >= 1
  {
    if k == 0 then 1 else 10 * Pow10(k - 1)
  }

  /** The sign of a literal and the part after it. */
  function SplitSign(tok: string): (int, string) {
    if |tok| > 0 && tok[0] == '-' then (-1, tok[1..])
    else if |tok| > 0 && tok[0] == '+' then (1, tok[1..])
    else (1, tok)
  }

  /** An integer literal: sign, then at least one digit. */
  function ParseInt(tok: string): (r: Option<int>)
    ensures r.Some? ==> |tok| > 0
  {
    var (sign, body) := SplitSign(tok);
    if |body| > 0 && AllDigits(body) then Some(sign * DigitsValue(body)) else None
  }

  /** A float literal: sign, digits, optionally `.` and more digits, one digit at least. */
  function ParseFloat(tok: string): (r: Option<real>)
    ensures r.Some? ==> |tok| > 0
  {
    var (sign, body) := SplitSign(tok);
    var dot := IndexOf(body, '.');
    var whole := body[..dot];
    var frac := if dot < |body| then body[dot + 1..] else "";
    if |whole| + |frac| > 0 && AllDigits(whole) && AllDigits(frac) then
      Some(sign as real * DecimalValue(whole, frac))
    else None
  }

  /** The value of the digits `whole`, a decimal point, and the digits `frac`. */
  function DecimalValue(whole: string, frac: string): real
    requires AllDigits(whole) && AllDigits(frac)
  {
    DigitsValue(whole) as real + DigitsValue(frac) as real / Pow10(|frac|) as real
  }

  /** One token under the dtype: `int` for `isInt`, `float` otherwise. */
  function ParseToken(tok: string, isInt: bool): (r: Option<Number>)
    ensures r.Some? ==> r.value.Int? == isInt
  {
    if isInt then
      match ParseInt(tok)
      case Some(i) => Some(Int(i))
      case None => None
    else
      match ParseFloat(tok)
      case Some(f) => Some(Float(f))
      case None => None
  }

  /** Every token read under the dtype, in order; `None` when one is not a literal. */
  function ParseTokens(toks: seq<string>, isInt: bool): (r: Option<seq<Number>>)
    ensures r.Some? <==> forall k :: 0 <= k < |toks| ==> ParseToken(toks[k], isInt).Some?
    ensures r.Some? ==> |r.value| == |toks|
    ensures r.Some? ==> forall k :: 0 <= k < |toks| ==> r.value[k] == ParseToken(toks[k], isInt).value
  {
    if |toks| == 0 then Some([])
    else
      match ParseToken(toks[0], isInt)
      case None => None
      case Some(n) =>
        match ParseTokens(toks[1..], isInt)
        case None => None
        case Some(ns) => Some([n] + ns)
  }

  /**
    `numpy.fromstring(text, sep=",")`: the empty text gives the empty list;
    otherwise every comma-separated token must be a literal of the dtype.
   */
  function FromString(text: string, isInt: bool): (r: Option<seq<Number>>)
    ensures text == "" ==> r == Some([])
    ensures text != "" ==> r == ParseTokens(Split(text, ','), isInt)
  {
    if text == "" then Some([]) else ParseTokens(Split(text, ','), isInt)
  }

  /** The decimal numeral of `n`, as Python's `str(n)` writes it. */
  function Show(n: nat): (s: string)
    ensures |s| > 0 && AllDigits(s)
  {
    if n < 10 then ['0' + n as char]
    else Show(n / 10) + ['0' + (n % 10) as char]
  }

  lemma {:induction false} ShowValue(n: nat)
    ensures DigitsValue(Show(n)) == n
  {
    if n >= 10 {
      ShowValue(n / 10);
      var s := Show(n);
      assert s[..|s| - 1] == Show(n / 10);
    }
  }

  /** A string of digits has no decimal point. */
  lemma NoPointInDigits(s: string)
    requires AllDigits(s)
    ensures IndexOf(s, '.') == |s|
  {
    assert forall k :: 0 <= k < |s| ==> s[k] != '.' by {
      forall k | 0 <= k < |s| ensures s[k] != '.' {
        assert IsDigit(s[k]);
      }
    }
  }

  /** A string of digits read as a float literal is the number it denotes. */
  lemma ParseFloatOfDigits(s: string)
    requires |s| > 0 && AllDigits(s)
    ensures ParseFloat(s) == Some(DigitsValue(s) as real)
  {
    assert SplitSign(s) == (1, s) by {
      assert IsDigit(s[0]);
    }
    assert s[..IndexOf(s, '.')] == s by {
      NoPointInDigits(s);
    }
    assert DecimalValue(s, "") == DigitsValue(s) as real;
  }

  /** Writing a natural number out and reading it back under the float dtype gives it as a float. */
  lemma ParseShowFloat(n: nat)
    ensures ParseToken(Show(n), false) == Some(Float(n as real))
  {
    ShowValue(n);
    ParseFloatOfDigits(Show(n));
  }
}

=== FILE: paths.dfy ===
/**
  POSIX path manipulation as Python's `posixpath` does it (`join`,
  `basename`, `dirname`), and `_path_diff` from pypreprocess/conf_parser.py.
 */
module Paths {
  import opened Results
  import opened Text

  predicate IsAbsolute(p: string) {
    |p| > 0 && p[0] == '/'
  }

  /**
    `os.path.join(a, b)`: an absolute `b` replaces `a`; otherwise `b` is
    appended, with a `/` in between unless `a` is empty or already ends in one.
   */
  function Join(a: string, b: string): (r: string)
    ensures IsAbsolute(b) ==> r == b
    ensures !IsAbsolute(b) ==> StartsWith(r, a) && EndsWith(r, b)
    ensures !IsAbsolute(b) && a != "" && a[|a| - 1] != '/' ==> |r| == |a| + 1 + |b| && r[|a|] == '/'
    ensures !IsAbsolute(b) && (a == "" || a[|a| - 1] == '/') ==> |r| == |a| + |b|
  {
    if IsAbsolute(b) then b
    else if a == "" || a[|a| - 1] == '/' then a + b
    else a + "/" + b
  }

  /** `p.rfind('/') + 1`: the index just after the last `/`, or 0 when there is none. */
  function AfterLastSlash(p: string): (i: nat)
    ensures i <= |p|
    ensures '/' !in p[i..]
    ensures i > 0 ==> p[i - 1] == '/'
  {
    if |p| == 0 then 0
    else if p[|p| - 1] == '/' then |p|
    else
      var i := AfterLastSlash(p[..|p| - 1]);
      assert p[i..] == p[..|p| - 1][i..] + [p[|p| - 1]];
      i
  }

  /** `os.path.basename(p)`: everything after the last `/`. */
  function Basename(p: string): (r: string)
    ensures '/' !in r
    ensures EndsWith(p, r)
  {
    p[AfterLastSlash(p)..]
  }

  /** `head.rstrip('/')`. */
  function StripTrailingSlashes(s: string): (r: string)
    ensures StartsWith(s, r)
    ensures forall k :: |r| <= k < |s| ==> s[k] == '/'
    ensures |r| == 0 || r[|r| - 1] != '/'
  {
    if |s| > 0 && s[|s| - 1] == '/' then
      var r := StripTrailingSlashes(s[..|s| - 1]);
      assert s[..|r|] == s[..|s| - 1][..|r|];
      r
    else s
  }

  predicate AllSlashes(s: string) {
    forall k :: 0 <= k < |s| ==> s[k] == '/'
  }

  /**
    `os.path.dirname(p)`: everything up to the last `/`, with trailing
    slashes stripped unless the head consists of slashes only.
   */
  function Dirname(p: string): (r: string)
    ensures StartsWith(p, r)
  {
    var head := p[..AfterLastSlash(p)];
    if head != "" && !AllSlashes(head) then StripTrailingSlashes(head) else head
  }

  /** The directory of an absolute path is itself absolute. */
  lemma DirnameOfAbsolute(p: string)
    requires IsAbsolute(p)
    ensures IsAbsolute(Dirname(p))
  {
    var head := p[..AfterLastSlash(p)];
    assert head != "" by {
      assert p[0..] == p;
    }
    if !AllSlashes(head) {
      var r := StripTrailingSlashes(head);
      assert |r| > 0 by {
        var k :| 0 <= k < |head| && head[k] != '/';
      }
    }
  }

  /** After a prefix that is empty or ends in `/`, a slash-free tail starts right after the last `/`. */
  lemma {:induction false} AfterLastSlashOfTail(pre: string, b: string)
    requires pre == "" || pre[|pre| - 1] == '/'
    requires '/' !in b
    ensures AfterLastSlash(pre + b) == |pre|
    decreases |b|
  {
    if b == "" {
      assert pre + b == pre;
    } else {
      var x := pre + b;
      assert x[|x| - 1] == b[|b| - 1];
      assert x[..|x| - 1] == pre + b[..|b| - 1];
      AfterLastSlashOfTail(pre, b[..|b| - 1]);
    }
  }

  /** Joining a name free of `/` onto any directory has that name as basename. */
  lemma BasenameOfJoin(a: string, b: string)
    requires '/' !in b
    ensures Basename(Join(a, b)) == b
  {
    assert !IsAbsolute(b);
    var pre := if a == "" || a[|a| - 1] == '/' then a else a + "/";
    assert Join(a, b) == pre + b;
    AfterLastSlashOfTail(pre, b);
    assert (pre + b)[|pre|..] == b;
  }

  /**
    `_path_diff(parent, child)`: the rest of `child` after `parent + "/"`,
    up to the first line break (the regex `parent/(.*)` with `re.match`:
    anchored at the start, `.` never matching a newline); `None` when
    `child` does not start with `parent + "/"`. `parent` is taken literally.
   */
  function PathDiff(parent: string, child: string): (r: Option<string>)
    ensures r.Some? <==> StartsWith(child, parent + "/")
    ensures r.Some? ==> '\n' !in r.value && StartsWith(child, parent + "/" + r.value)
    ensures r.Some? && |parent| + 1 + |r.value| < |child| ==> child[|parent| + 1 + |r.value|] == '\n'
  {
    var prefix := parent + "/";
    if StartsWith(child, prefix) then
      var rest := child[|prefix|..];
      var d := rest[..IndexOf(rest, '\n')];
      assert child[..|prefix| + |d|] == prefix + d;
      Some(d)
    else None
  }

  /** `_path_diff(p, p + "/" + s)` is `s` for any single-line `s`. */
  lemma PathDiffOfJoined(p: string, s: string)
    requires '\n' !in s
    ensures PathDiff(p, p + "/" + s) == Some(s)
  {
    var c := p + "/" + s;
    assert c[..|p| + 1] == p + "/";
    assert c[|p| + 1..] == s;
    assert IndexOf(s, '\n') == |s|;
    assert s[..|s|] == s;
  }

  /** The example from the docstring of `_path_diff`. */
  lemma PathDiffExample()
    ensures PathDiff("/family/johndoe", "/family/johndoe/bob/pet") == Some("bob/pet")
  {
    PathDiffOfJoined("/family/johndoe", "bob/pet");
  }
}

=== FILE: pipeline.dfy ===
/**
  `_generate_preproc_pipeline` (pypreprocess/conf_parser.py, lines 74-274):
  from a parsed job file to the list of subject descriptors and the
  preprocessing parameters.

  The job file arrives already read by ConfigObj, as the entries of its
  root section; the filesystem and `_expand_path` are the `FileSystem`
  record, and `eval` the `Evaluator`. The directories `os.makedirs` is
  asked to create come back as a set.
 */
module Pipeline {
  import opened Results
  import opened Paths
  import opened Sorting
  import opened ConfigTree
  import opened Environment
  import opened Sanitizer
  import opened Discovery
  import opened PreprocParams

  /** What a successful compilation yields. */
  datatype Compiled = Compiled(subjects: seq<SubjectData>, params: Params, createdDirs: set<string>)

  /**
    Lines 82-84: the job file must exist; its `config` section, sanitised
    and pruned of `None`s, holds the options.
   */
  function Options(jobfile: string, root: seq<Entry>, eval: Evaluator, fs: FileSystem): (r: Result<seq<Entry>, Error>)
    ensures !fs.isFile(jobfile) ==> r == Err(JobFileNotFound(jobfile))
    ensures r.Ok? ==> forall i :: 0 <= i < |r.value| ==> r.value[i].val != Null && NoNones(r.value[i].val)
  {
    if !fs.isFile(jobfile) then Err(JobFileNotFound(jobfile))
    else
      var config :- ParseJob(root, eval);
      match DelNones(config)
      case Section(es) => Ok(es)
      case _ => Err(WrongType("config"))
  }

  /**
    Lines 82-84 succeed exactly when the job file exists, the walk gets
    through every entry at every depth, and `config` is a section.
   */
  lemma OptionsSucceeds(jobfile: string, root: seq<Entry>, eval: Evaluator, fs: FileSystem)
    ensures fs.isFile(jobfile) ==>
              (Options(jobfile, root, eval, fs).Ok? <==>
                 && (forall i :: 0 <= i < |root| ==> Walks(root[i], eval))
                 && "config" in Keys(root) && Get(root, "config").value.Section?)
  {
    if fs.isFile(jobfile) && ParseJob(root, eval).Ok? {
      ConfigStaysSection(root, eval);
    }
  }

  /** The walked and pruned `config` is a section exactly when the job file's is. */
  lemma ConfigStaysSection(root: seq<Entry>, eval: Evaluator)
    requires ParseJob(root, eval).Ok?
    ensures "config" in Keys(root)
    ensures DelNones(ParseJob(root, eval).value).Section? <==> Get(root, "config").value.Section?
  {
    var parsed := ParseJob(root, eval).value;
    assert SanitizedEntry(Entry("config", Get(root, "config").value), Entry("config", parsed), eval);
    assert DelNones(parsed).Section? <==> parsed.Section?;
  }

  /**
    Lines 82-84 option by option: a scalar option of the job file's
    `config` section holds its sanitised value, and is gone when that value
    is `None` or when the job file does not set it.
   */
  lemma OptionsLookup(jobfile: string, root: seq<Entry>, eval: Evaluator, fs: FileSystem, key: string)
    ensures var r := Options(jobfile, root, eval, fs);
            var config := Get(root, "config");
            r.Ok? ==>
              && config.Some? && config.value.Section?
              && (UniqueKeys(config.value.entries) ==>
                    var v := Get(config.value.entries, key);
                    && (v.None? ==> Get(r.value, key).None?)
                    && (v.Some? && !v.value.Section? ==>
                          && Sanitize(key, v.value, eval).Ok?
                          && Get(r.value, key) ==
                               (if Sanitize(key, v.value, eval).value == Null then None
                                else Some(Sanitize(key, v.value, eval).value))))
  {
    var r := Options(jobfile, root, eval, fs);
    if r.Ok? {
      var cfg := ParseJob(root, eval).value;
      var orig := Get(root, "config").value;
      assert SanitizedEntry(Entry("config", orig), Entry("config", cfg), eval);
      assert cfg.Section? && orig.Section?;
      assert r.value == DelNonesIn(cfg, cfg.entries);
      if UniqueKeys(orig.entries) {
        OptionsLookupAt(orig.entries, cfg, key, eval);
      }
    }
  }

  /** `OptionsLookup` for the entries of a walked `config` section `cfg`. */
  lemma OptionsLookupAt(orig: seq<Entry>, cfg: Value, key: string, eval: Evaluator)
    requires cfg.Section?
    requires UniqueKeys(orig)
    requires |cfg.entries| == |orig|
    requires forall i :: 0 <= i < |orig| ==> SanitizedEntry(orig[i], cfg.entries[i], eval)
    ensures var v := Get(orig, key);
            var got := Get(DelNonesIn(cfg, cfg.entries), key);
            && (v.None? ==> got.None?)
            && (v.Some? && !v.value.Section? ==>
                  && Sanitize(key, v.value, eval).Ok?
                  && got == (if Sanitize(key, v.value, eval).value == Null then None
                             else Some(Sanitize(key, v.value, eval).value)))
  {
    var es := cfg.entries;
    assert forall i :: 0 <= i < |es| ==> es[i].key == orig[i].key;
    assert UniqueKeys(es);
    GetAligned(orig, es, key, eval);
    DelNonesLookup(cfg, es, key);
  }

  /**
    Lines 87-99: the dataset directory given to the call, or else the
    `dataset_dir` option, expanded; it must be an existing directory.
   */
  function DatasetDir(options: seq<Entry>, given: Option<string>, fs: FileSystem): (r: Result<string, Error>)
    ensures r.Ok? ==> fs.isDir(r.value)
    ensures given.None? && "dataset_dir" !in Keys(options) ==> r == Err(MissingKey("dataset_dir"))
    ensures given.Some? ==> r.Ok? == (fs.expandPath(given.value, None).Some? && fs.isDir(fs.expandPath(given.value, None).value))
    ensures given.Some? && r.Ok? ==> fs.expandPath(given.value, None) == Some(r.value)
    ensures given.None? && r.Ok? ==>
              exists d :: Get(options, "dataset_dir") == Some(Str(d)) && fs.expandPath(d, None) == Some(r.value)
    ensures given.None? && "dataset_dir" in Keys(options) && !Get(options, "dataset_dir").value.Str? ==>
              r == Err(WrongType("dataset_dir"))
    ensures forall d :: given.None? && Get(options, "dataset_dir") == Some(Str(d)) ==>
              (r.Ok? <==> fs.expandPath(d, None).Some? && fs.isDir(fs.expandPath(d, None).value))
  {
    var dir :- match given
      case Some(d) => Ok(d)
      case None =>
        (match Get(options, "dataset_dir")
         case None => Err(MissingKey("dataset_dir"))
         case Some(Str(d)) => Ok(d)
         case Some(_) => Err(WrongType("dataset_dir")));
    match fs.expandPath(dir, None)
    case None => Err(DatasetDirNotFound(dir))
    case Some(d) => if fs.isDir(d) then Ok(d) else Err(DatasetDirNotFound(d))
  }

  /** Lines 102-108: `output_dir` is required and is expanded relative to the dataset directory. */
  function OutputDir(options: seq<Entry>, datasetDir: string, fs: FileSystem): (r: Result<string, Error>)
    ensures "output_dir" !in Keys(options) ==> r == Err(MissingKey("output_dir"))
    ensures r.Ok? ==> exists o :: Get(options, "output_dir") == Some(Str(o)) && fs.expandPath(o, Some(datasetDir)) == Some(r.value)
    ensures forall o :: Get(options, "output_dir") == Some(Str(o)) ==>
              r == (if fs.expandPath(o, Some(datasetDir)).Some? then Ok(fs.expandPath(o, Some(datasetDir)).value)
                    else Err(OutputDirUnexpandable(o)))
    ensures "output_dir" in Keys(options) && !Get(options, "output_dir").value.Str? ==> r == Err(WrongType("output_dir"))
  {
    match Get(options, "output_dir")
    case None => Err(MissingKey("output_dir"))
    case Some(Str(o)) =>
      (match fs.expandPath(o, Some(datasetDir))
       case None => Err(OutputDirUnexpandable(o))
       case Some(d) => Ok(d))
    case Some(_) => Err(WrongType("output_dir"))
  }

  /** Lines 137-139: the subject directories are `subject_dirs` (default `*`) below the dataset directory. */
  function SubjectWildcard(options: seq<Entry>, datasetDir: string): (r: Result<string, Error>)
    ensures "subject_dirs" !in Keys(options) ==> r == Ok(Join(datasetDir, "*"))
    ensures forall p :: Get(options, "subject_dirs") == Some(Str(p)) ==> r == Ok(Join(datasetDir, p))
    ensures "subject_dirs" in Keys(options) && !Get(options, "subject_dirs").value.Str? ==> r == Err(WrongType("subject_dirs"))
  {
    match GetOr(options, "subject_dirs", Str("*"))
    case Str(p) => Ok(Join(datasetDir, p))
    case _ => Err(WrongType("subject_dirs"))
  }

  /** Lines 116-120 and 140: what the subject loop reads from the options. */
  function LoopSettings(options: seq<Entry>, outputDir: string): (st: Settings)
    ensures ValidSettings(st)
    ensures st.outputDir == outputDir
    ensures forall e :: e in st.sessions <==> e in options && SessionId(e.key).Some?
    ensures st.anat == Get(options, "anat") && st.nsubjects == Get(options, "nsubjects")
    ensures "nsubjects" !in Keys(options) ==> Cap(st.nsubjects).None?
    ensures ExcludeKey !in Keys(options) ==> st.excludeIds == StrList([])
    ensures IncludeKey !in Keys(options) ==> st.includeIds == StrList([])
    ensures ExcludeKey in Keys(options) ==> Some(st.excludeIds) == Get(options, ExcludeKey)
    ensures IncludeKey in Keys(options) ==> Some(st.includeIds) == Get(options, IncludeKey)
  {
    Settings(outputDir, SessionEntries(options), Get(options, "anat"), Get(options, "nsubjects"),
             GetOr(options, ExcludeKey, StrList([])), GetOr(options, IncludeKey, StrList([])))
  }

  /** `BuildSubject` under fixed settings, as the loop uses it. */
  function BuildWith(st: Settings, fs: FileSystem): Builder
    requires ValidSettings(st)
  {
    d => BuildSubject(d, st, fs)
  }

  /**
    Lines 140-212: at least one session key is required; the sorted
    subject directories are run through the loop, and at least one subject
    must come out of it.
   */
  function Subjects(options: seq<Entry>, outputDir: string, wildcard: string, fs: FileSystem)
    : Result<(seq<SubjectData>, set<string>), Error>
  {
    var st := LoopSettings(options, outputDir);
    if |st.sessions| == 0 then Err(NoSessions)
    else
      var loop :- SubjectLoop(Sort(fs.glob(wildcard)), 0, st, BuildWith(st, fs));
      if |loop.0| == 0 then Err(NoSubjects(wildcard)) else Ok(loop)
  }

  /** The subject directories the loop keeps: sorted, not ignored, at most `nsubjects`. */
  function SelectedDirs(options: seq<Entry>, outputDir: string, wildcard: string, fs: FileSystem): seq<string> {
    Selected(Sort(fs.glob(wildcard)), 0, LoopSettings(options, outputDir))
  }

  /** The three directories lines 87-139 settle before any subject is looked at. */
  datatype Dirs = Dirs(dataset: string, output: string, subjectWildcard: string)

  /** Lines 87-139: the dataset directory, the output directory and the subject wildcard, in that order. */
  function Directories(options: seq<Entry>, given: Option<string>, fs: FileSystem): Result<Dirs, Error> {
    var dataDir :- DatasetDir(options, given, fs);
    var outputDir :- OutputDir(options, dataDir, fs);
    var wildcard :- SubjectWildcard(options, dataDir);
    Ok(Dirs(dataDir, outputDir, wildcard))
  }

  /** `_generate_preproc_pipeline(jobfile, dataset_dir)`. */
  function GeneratePreprocPipeline(jobfile: string, root: seq<Entry>, datasetDir: Option<string>, fs: FileSystem, eval: Evaluator)
    : Result<Compiled, Error>
  {
    var options :- Options(jobfile, root, eval, fs);
    var dirs :- Directories(options, datasetDir, fs);
    var subjects :- Subjects(options, dirs.output, dirs.subjectWildcard, fs);
    var params :- AssembleParams(options, dirs.output, dirs.dataset);
    Ok(Compiled(subjects.0, params, subjects.1))
  }

  // ---------------------------------------------------------------------
  // Properties

  /**
    A loop that builds a subject has met a candidate that was not
    excluded, so `in` was applied to both lists without raising: both are
    containers.
   */
  lemma {:induction false} LoopNeedsContainers(cands: seq<string>, count: nat, st: Settings, build: Builder)
    requires SubjectLoop(cands, count, st, build).Ok?
    requires |SubjectLoop(cands, count, st, build).value.0| > 0
    ensures IsContainer(st.excludeIds) && IsContainer(st.includeIds)
    decreases |cands|
  {
    var ignore := IgnoreSubject(Basename(cands[0]), st.excludeIds, st.includeIds);
    if ignore == Ok(true) {
      LoopNeedsContainers(cands[1..], count, st, build);
    }
  }

  /**
    The subject list, when there is one, describes exactly the selected
    subjects: the first `nsubjects` sorted candidates not ignored, at least
    one, each with the descriptor `Describes` characterises.
   */
  lemma SubjectsSelected(options: seq<Entry>, outputDir: string, wildcard: string, fs: FileSystem)
    ensures var r := Subjects(options, outputDir, wildcard, fs);
            var st := LoopSettings(options, outputDir);
            var sel := SelectedDirs(options, outputDir, wildcard, fs);
            r.Ok? ==>
              && |sel| > 0
              && |r.value.0| == |sel|
              && (forall k :: 0 <= k < |sel| ==> Buildable(sel[k], st, fs) && Describes(sel[k], st, fs, r.value.0[k]))
  {
    var st := LoopSettings(options, outputDir);
    var cands := Sort(fs.glob(wildcard));
    var r := Subjects(options, outputDir, wildcard, fs);
    if r.Ok? {
      var loop := SubjectLoop(cands, 0, st, BuildWith(st, fs));
      assert loop.Ok? && |loop.value.0| > 0 && r.value.0 == loop.value.0;
      LoopDescribesSelected(cands, st, fs);
    }
  }

  /**
    With both id lists usable by `in` and `len`, subject discovery succeeds
    exactly when there is a session key, at least one directory is
    selected, and every selected directory can be built.
   */
  lemma SubjectsSucceeds(options: seq<Entry>, outputDir: string, wildcard: string, fs: FileSystem)
    requires IsContainer(LoopSettings(options, outputDir).excludeIds)
    requires IsContainer(LoopSettings(options, outputDir).includeIds)
    ensures var st := LoopSettings(options, outputDir);
            var sel := SelectedDirs(options, outputDir, wildcard, fs);
            Subjects(options, outputDir, wildcard, fs).Ok? <==>
              |st.sessions| > 0 && |sel| > 0 && forall k :: 0 <= k < |sel| ==> Buildable(sel[k], st, fs)
  {
    var st := LoopSettings(options, outputDir);
    LoopSucceeds(Sort(fs.glob(wildcard)), st, fs);
  }

  /** `SubjectsSucceeds` for the loop over the sorted candidates. */
  lemma LoopSucceeds(cands: seq<string>, st: Settings, fs: FileSystem)
    requires ValidSettings(st)
    requires IsContainer(st.excludeIds) && IsContainer(st.includeIds)
    ensures var sel := Selected(cands, 0, st);
            var loop := SubjectLoop(cands, 0, st, BuildWith(st, fs));
            loop.Ok? && |loop.value.0| > 0 <==> |sel| > 0 && forall k :: 0 <= k < |sel| ==> Buildable(sel[k], st, fs)
  {
    var sel := Selected(cands, 0, st);
    var build := BuildWith(st, fs);
    StartsWithinCap(st.nsubjects);
    SubjectLoopSucceeds(cands, 0, st, build);
    SubjectLoopSelects(cands, 0, st, build);
    forall k | 0 <= k < |sel|
      ensures build(sel[k]).Ok? <==> Buildable(sel[k], st, fs)
    {
      BuildSubjectOk(sel[k], st, fs);
    }
  }

  /** A loop that yields subjects has built each selected directory, as `BuildSubjectSpec` describes. */
  lemma LoopDescribesSelected(cands: seq<string>, st: Settings, fs: FileSystem)
    requires ValidSettings(st)
    requires SubjectLoop(cands, 0, st, BuildWith(st, fs)).Ok?
    requires |SubjectLoop(cands, 0, st, BuildWith(st, fs)).value.0| > 0
    ensures var subjects := SubjectLoop(cands, 0, st, BuildWith(st, fs)).value.0;
            var sel := Selected(cands, 0, st);
            && |subjects| == |sel|
            && (forall k :: 0 <= k < |sel| ==> Buildable(sel[k], st, fs) && Describes(sel[k], st, fs, subjects[k]))
  {
    var build := BuildWith(st, fs);
    var subjects := SubjectLoop(cands, 0, st, build).value.0;
    LoopNeedsContainers(cands, 0, st, build);
    StartsWithinCap(st.nsubjects);
    SubjectLoopSelects(cands, 0, st, build);
    var sel := Selected(cands, 0, st);
    forall k | 0 <= k < |sel|
      ensures Buildable(sel[k], st, fs) && Describes(sel[k], st, fs, subjects[k])
    {
      BuildSubjectSpec(sel[k], st, fs);
      assert build(sel[k]) == BuildSubject(sel[k], st, fs);
    }
  }

  /**
    The directories subject discovery asks `os.makedirs` to create are
    exactly the output directories of its descriptors that do not exist yet.
   */
  lemma SubjectsCreate(options: seq<Entry>, outputDir: string, wildcard: string, fs: FileSystem)
    ensures var r := Subjects(options, outputDir, wildcard, fs);
            r.Ok? ==> forall d :: d in r.value.1 <==>
                        exists k :: 0 <= k < |r.value.0| &&
                          (d in r.value.0[k].sessionOutputDirs || d == r.value.0[k].anatOutputDir) && !fs.pathExists(d)
  {
    var st := LoopSettings(options, outputDir);
    var cands := Sort(fs.glob(wildcard));
    var r := Subjects(options, outputDir, wildcard, fs);
    if r.Ok? {
      var loop := SubjectLoop(cands, 0, st, BuildWith(st, fs));
      assert loop.Ok? && |loop.value.0| > 0 && r.value == loop.value;
      LoopCreatesOutputDirs(cands, st, fs);
    }
  }

  /** `SubjectsCreate` for the loop over the sorted candidates. */
  lemma LoopCreatesOutputDirs(cands: seq<string>, st: Settings, fs: FileSystem)
    requires ValidSettings(st)
    requires SubjectLoop(cands, 0, st, BuildWith(st, fs)).Ok?
    requires |SubjectLoop(cands, 0, st, BuildWith(st, fs)).value.0| > 0
    ensures var r := SubjectLoop(cands, 0, st, BuildWith(st, fs)).value;
            forall d :: d in r.1 <==>
              exists k :: 0 <= k < |r.0| && (d in r.0[k].sessionOutputDirs || d == r.0[k].anatOutputDir) && !fs.pathExists(d)
  {
    var build := BuildWith(st, fs);
    var r := SubjectLoop(cands, 0, st, build).value;
    LoopNeedsContainers(cands, 0, st, build);
    StartsWithinCap(st.nsubjects);
    SubjectLoopSelects(cands, 0, st, build);
    SubjectLoopCreates(cands, 0, st, build);
    var sel := Selected(cands, 0, st);
    forall d
      ensures d in r.1 <==>
                exists k :: 0 <= k < |r.0| && (d in r.0[k].sessionOutputDirs || d == r.0[k].anatOutputDir) && !fs.pathExists(d)
    {
      CreatedForDescriptors(d, sel, r.0, st, fs);
    }
  }

  /** A directory is created for one of `dirs` when it is a missing output directory of its descriptor. */
  lemma CreatedForDescriptors(d: string, dirs: seq<string>, descs: seq<SubjectData>, st: Settings, fs: FileSystem)
    requires ValidSettings(st)
    requires |descs| == |dirs|
    requires forall k :: 0 <= k < |dirs| ==> BuildWith(st, fs)(dirs[k]).Ok? && descs[k] == BuildWith(st, fs)(dirs[k]).value.0
    ensures CreatedFor(d, dirs, BuildWith(st, fs)) <==>
              exists k :: 0 <= k < |descs| && (d in descs[k].sessionOutputDirs || d == descs[k].anatOutputDir) && !fs.pathExists(d)
  {
    var build := BuildWith(st, fs);
    if CreatedFor(d, dirs, build) {
      var k :| 0 <= k < |dirs| && build(dirs[k]).Ok? && d in build(dirs[k]).value.1;
      BuildSubjectCreates(dirs[k], st, fs);
      assert build(dirs[k]) == BuildSubject(dirs[k], st, fs);
    }
    if exists k :: 0 <= k < |descs| && (d in descs[k].sessionOutputDirs || d == descs[k].anatOutputDir) && !fs.pathExists(d) {
      var k :| 0 <= k < |descs| && (d in descs[k].sessionOutputDirs || d == descs[k].anatOutputDir) && !fs.pathExists(d);
      BuildSubjectCreates(dirs[k], st, fs);
      assert build(dirs[k]) == BuildSubject(dirs[k], st, fs);
    }
  }

  /**
    Subject discovery fails when a selected subject cannot be built: a
    session pattern matching nothing, or a configured anatomical image that
    is not a file.
   */
  lemma UnbuildableSubjectFails(options: seq<Entry>, outputDir: string, wildcard: string, fs: FileSystem, k: nat)
    requires k < |SelectedDirs(options, outputDir, wildcard, fs)|
    requires !Buildable(SelectedDirs(options, outputDir, wildcard, fs)[k], LoopSettings(options, outputDir), fs)
    ensures Subjects(options, outputDir, wildcard, fs).Err?
  {
    SubjectsSelected(options, outputDir, wildcard, fs);
  }

  /** Without a `session_..._func` option, subject discovery fails before looking at any directory. */
  lemma NoSessionKeysFails(options: seq<Entry>, outputDir: string, wildcard: string, fs: FileSystem)
    requires forall i :: 0 <= i < |options| ==> SessionId(options[i].key).None?
    ensures Subjects(options, outputDir, wildcard, fs) == Err(NoSessions)
  {
  }

  /**
    A compilation that gets past the directories succeeds exactly when
    subject discovery and the parameter assembly both do, and then returns
    their results.
   */
  lemma PipelineComposes(jobfile: string, root: seq<Entry>, datasetDir: Option<string>, fs: FileSystem, eval: Evaluator,
                         options: seq<Entry>, dirs: Dirs)
    requires Options(jobfile, root, eval, fs) == Ok(options)
    requires Directories(options, datasetDir, fs) == Ok(dirs)
    ensures var r := GeneratePreprocPipeline(jobfile, root, datasetDir, fs, eval);
            var subjects := Subjects(options, dirs.output, dirs.subjectWildcard, fs);
            var params := AssembleParams(options, dirs.output, dirs.dataset);
            && (r.Ok? <==> subjects.Ok? && params.Ok?)
            && (r.Ok? ==> r.value == Compiled(subjects.value.0, params.value, subjects.value.1))
  {
  }

  /**
    A compilation whose options or directories fail fails with that error,
    before any subject is looked at.
   */
  lemma PipelineFailsEarly(jobfile: string, root: seq<Entry>, datasetDir: Option<string>, fs: FileSystem, eval: Evaluator)
    ensures var r := GeneratePreprocPipeline(jobfile, root, datasetDir, fs, eval);
            var opts := Options(jobfile, root, eval, fs);
            && (opts.Err? ==> r == Err(opts.error))
            && (opts.Ok? && Directories(opts.value, datasetDir, fs).Err? ==>
                  r == Err(Directories(opts.value, datasetDir, fs).error))
  {
    var opts := Options(jobfile, root, eval, fs);
    if opts.Ok? {
      var dirs := Directories(opts.value, datasetDir, fs);
      if dirs.Err? {
        assert GeneratePreprocPipeline(jobfile, root, datasetDir, fs, eval) == Err(dirs.error);
      }
    }
  }

  /** A compilation that succeeds has found at least one subject (line 211). */
  lemma PipelineFindsSubjects(jobfile: string, root: seq<Entry>, datasetDir: Option<string>, fs: FileSystem, eval: Evaluator)
    ensures var r := GeneratePreprocPipeline(jobfile, root, datasetDir, fs, eval);
            r.Ok? ==> |r.value.subjects| > 0
  {
    var r := GeneratePreprocPipeline(jobfile, root, datasetDir, fs, eval);
    if r.Ok? {
      var options := Options(jobfile, root, eval, fs).value;
      var dirs := Directories(options, datasetDir, fs).value;
      var subjects := Subjects(options, dirs.output, dirs.subjectWildcard, fs);
      assert subjects.Ok? && r.value.subjects == subjects.value.0;
    }
  }

  /**
    Lines 87-139 settle the directories in order and the first failure is
    theirs: the dataset directory, then the output directory, then the
    subject wildcard.
   */
  lemma DirectoriesFailFirst(options: seq<Entry>, given: Option<string>, fs: FileSystem)
    ensures var r := Directories(options, given, fs);
            var data := DatasetDir(options, given, fs);
            && (data.Err? ==> r == Err(data.error))
            && (data.Ok? ==>
                  var out := OutputDir(options, data.value, fs);
                  var wildcard := SubjectWildcard(options, data.value);
                  && (out.Err? ==> r == Err(out.error))
                  && (out.Ok? && wildcard.Err? ==> r == Err(wildcard.error))
                  && (out.Ok? && wildcard.Ok? ==> r == Ok(Dirs(data.value, out.value, wildcard.value))))
  {
  }

  // ---------------------------------------------------------------------
  // Independence from the order of `glob`'s answers

  /** Two filesystems that agree on everything except the order in which `glob` lists its matches. */
  ghost predicate SameListings(fs1: FileSystem, fs2: FileSystem) {
    && fs2 == fs1.(glob := fs2.glob)
    && forall p :: multiset(fs1.glob(p)) == multiset(fs2.glob(p))
  }

  lemma SessionMatchesAgree(subjectDir: string, pattern: string, fs1: FileSystem, fs2: FileSystem)
    requires SameListings(fs1, fs2)
    ensures SessionMatches(subjectDir, pattern, fs1) == SessionMatches(subjectDir, pattern, fs2)
  {
    SortIsDeterministic(fs1.glob(Join(subjectDir, pattern)), fs2.glob(Join(subjectDir, pattern)));
  }

  lemma {:induction false} GrabEachAgrees(sessions: seq<Entry>, g1: SessionGrabber, g2: SessionGrabber)
    requires forall e :: g1(e) == g2(e)
    ensures GrabEach(sessions, g1) == GrabEach(sessions, g2)
  {
    if |sessions| > 0 {
      GrabEachAgrees(sessions[1..], g1, g2);
    }
  }

  lemma GrabSessionsAgree(subjectDir: string, subjectId: string, subjectOutputDir: string,
                          sessions: seq<Entry>, fs1: FileSystem, fs2: FileSystem)
    requires SameListings(fs1, fs2)
    ensures GrabSessions(subjectDir, subjectId, subjectOutputDir, sessions, fs1)
         == GrabSessions(subjectDir, subjectId, subjectOutputDir, sessions, fs2)
  {
    var g1 := GrabberFor(subjectDir, subjectId, subjectOutputDir, fs1);
    var g2 := GrabberFor(subjectDir, subjectId, subjectOutputDir, fs2);
    forall e ensures g1(e) == g2(e) {
      if e.val.Str? {
        SessionMatchesAgree(subjectDir, e.val.s, fs1, fs2);
      }
    }
    GrabEachAgrees(sessions, g1, g2);
  }

  /** `BuildSubject` reads the listings only through `GrabSessions`. */
  lemma BuildSubjectFromSessions(subjectDir: string, st: Settings, fs1: FileSystem, fs2: FileSystem)
    requires ValidSettings(st)
    requires fs1.isFile == fs2.isFile && fs1.pathExists == fs2.pathExists
    requires GrabSessions(subjectDir, Basename(subjectDir), Join(st.outputDir, Basename(subjectDir)), st.sessions, fs1)
          == GrabSessions(subjectDir, Basename(subjectDir), Join(st.outputDir, Basename(subjectDir)), st.sessions, fs2)
    ensures BuildSubject(subjectDir, st, fs1) == BuildSubject(subjectDir, st, fs2)
  {
    assert GrabAnat(subjectDir, st.anat, fs1) == GrabAnat(subjectDir, st.anat, fs2);
  }

  lemma BuildSubjectAgrees(subjectDir: string, st: Settings, fs1: FileSystem, fs2: FileSystem)
    requires ValidSettings(st)
    requires SameListings(fs1, fs2)
    ensures BuildSubject(subjectDir, st, fs1) == BuildSubject(subjectDir, st, fs2)
  {
    var id := Basename(subjectDir);
    GrabSessionsAgree(subjectDir, id, Join(st.outputDir, id), st.sessions, fs1, fs2);
    BuildSubjectFromSessions(subjectDir, st, fs1, fs2);
  }

  lemma {:induction false} SubjectLoopAgrees(cands: seq<string>, count: nat, st: Settings, b1: Builder, b2: Builder)
    requires forall d :: b1(d) == b2(d)
    ensures SubjectLoop(cands, count, st, b1) == SubjectLoop(cands, count, st, b2)
    decreases |cands|
  {
    if |cands| > 0 {
      SubjectLoopAgrees(cands[1..], count, st, b1, b2);
      SubjectLoopAgrees(cands[1..], count + 1, st, b1, b2);
    }
  }

  lemma SubjectsAgree(options: seq<Entry>, outputDir: string, wildcard: string, fs1: FileSystem, fs2: FileSystem)
    requires SameListings(fs1, fs2)
    ensures Subjects(options, outputDir, wildcard, fs1) == Subjects(options, outputDir, wildcard, fs2)
  {
    var st := LoopSettings(options, outputDir);
    SortIsDeterministic(fs1.glob(wildcard), fs2.glob(wildcard));
    forall d ensures BuildWith(st, fs1)(d) == BuildWith(st, fs2)(d) {
      BuildSubjectAgrees(d, st, fs1, fs2);
    }
    SubjectLoopAgrees(Sort(fs1.glob(wildcard)), 0, st, BuildWith(st, fs1), BuildWith(st, fs2));
  }

  lemma OptionsAgree(jobfile: string, root: seq<Entry>, eval: Evaluator, fs1: FileSystem, fs2: FileSystem)
    requires fs1.isFile == fs2.isFile
    ensures Options(jobfile, root, eval, fs1) == Options(jobfile, root, eval, fs2)
  {
    assert fs1.isFile(jobfile) == fs2.isFile(jobfile);
  }

  lemma DirectoriesAgree(options: seq<Entry>, given: Option<string>, fs1: FileSystem, fs2: FileSystem)
    requires fs1.isDir == fs2.isDir && fs1.expandPath == fs2.expandPath
    ensures Directories(options, given, fs1) == Directories(options, given, fs2)
  {
    var dataDir := DatasetDir(options, given, fs1);
    assert dataDir == DatasetDir(options, given, fs2);
    if dataDir.Ok? {
      assert OutputDir(options, dataDir.value, fs1) == OutputDir(options, dataDir.value, fs2);
    }
  }

  /** The compilation reads the listings only through subject discovery. */
  lemma PipelineFromSubjects(jobfile: string, root: seq<Entry>, datasetDir: Option<string>,
                             fs1: FileSystem, fs2: FileSystem, eval: Evaluator)
    requires fs1.isFile == fs2.isFile && fs1.isDir == fs2.isDir && fs1.expandPath == fs2.expandPath
    requires forall options, outputDir, wildcard ::
               Subjects(options, outputDir, wildcard, fs1) == Subjects(options, outputDir, wildcard, fs2)
    ensures GeneratePreprocPipeline(jobfile, root, datasetDir, fs1, eval)
         == GeneratePreprocPipeline(jobfile, root, datasetDir, fs2, eval)
  {
    OptionsAgree(jobfile, root, eval, fs1, fs2);
    var options := Options(jobfile, root, eval, fs1);
    if options.Ok? {
      DirectoriesAgree(options.value, datasetDir, fs1, fs2);
      var dirs := Directories(options.value, datasetDir, fs1);
      if dirs.Ok? {
        PipelineComposes(jobfile, root, datasetDir, fs1, eval, options.value, dirs.value);
        PipelineComposes(jobfile, root, datasetDir, fs2, eval, options.value, dirs.value);
        assert Subjects(options.value, dirs.value.output, dirs.value.subjectWildcard, fs1)
            == Subjects(options.value, dirs.value.output, dirs.value.subjectWildcard, fs2);
      }
    }
  }

  /**
    The compilation does not depend on the order in which `glob` lists
    subject directories or images: both listings are sorted before use.
   */
  lemma PipelineIgnoresGlobOrder(jobfile: string, root: seq<Entry>, datasetDir: Option<string>,
                                 fs1: FileSystem, fs2: FileSystem, eval: Evaluator)
    requires SameListings(fs1, fs2)
    ensures GeneratePreprocPipeline(jobfile, root, datasetDir, fs1, eval)
         == GeneratePreprocPipeline(jobfile, root, datasetDir, fs2, eval)
  {
    forall options, outputDir, wildcard
      ensures Subjects(options, outputDir, wildcard, fs1) == Subjects(options, outputDir, wildcard, fs2)
    {
      SubjectsAgree(options, outputDir, wildcard, fs1, fs2);
    }
    PipelineFromSubjects(jobfile, root, datasetDir, fs1, fs2, eval);
  }
}

=== FILE: preproc_params.dfy ===
/**
  The preprocessing parameters `_generate_preproc_pipeline` hands on
  (pypreprocess/conf_parser.py, lines 214-272), built from the pruned
  options one processing stage at a time. Every stage is on unless its
  `disable_<stage>` option is truthy, and the options of a stage are put in
  the dictionary only when the stage is on.

  The dictionary is modelled as a record: the keys always present are
  fields, and the keys a stage adds form one optional field, present
  exactly when the source would have added them.
 */
module PreprocParams {
  import opened Results
  import opened ConfigTree

  /** `TR`, `TA`, `slice_order` and `interleaved`, each `None` when not given. */
  datatype SliceTimingOptions = SliceTimingOptions(tr: Value, ta: Value, sliceOrder: Value, interleaved: Value)

  /** `realign_reslice` and `register_to_mean`. */
  datatype RealignOptions = RealignOptions(reslice: Value, registerToMean: Value)

  /** `coregister_reslice` and `coreg_anat_to_func`. */
  datatype CoregisterOptions = CoregisterOptions(reslice: Value, anatToFunc: bool)

  /** `func_write_voxel_sizes`, `anat_write_voxel_sizes` and `dartel`. */
  datatype NormalizeOptions = NormalizeOptions(funcVoxelSizes: Value, anatVoxelSizes: Value, dartel: Value)

  datatype Params = Params(
    spmDir: Value,
    matlabExec: Value,
    report: Value,
    outputDir: string,
    datasetId: Value,
    nJobs: Value,
    caching: Value,
    cvTc: Value,
    datasetDescription: Value,
    deleteOrient: Value,
    sliceTiming: bool,
    sliceTimingOptions: Option<SliceTimingOptions>,
    realign: bool,
    realignOptions: Option<RealignOptions>,
    coregister: bool,
    coregisterOptions: Option<CoregisterOptions>,
    segment: bool,
    normalize: bool,
    normalizeOptions: Option<NormalizeOptions>,
    fwhm: Value)

  /** `not options.get("disable_" + stage, False)`. */
  predicate Enabled(options: seq<Entry>, stage: string) {
    !Truthy(GetOr(options, "disable_" + stage, Bool(false)))
  }

  const DefaultFuncVoxelSizes: Value := NumList([Int(3), Int(3), Int(3)])
  const DefaultAnatVoxelSizes: Value := NumList([Int(1), Int(1), Int(1)])

  /** Slice timing (lines 229-238): when on, its four options are copied. */
  function SliceTimingStage(options: seq<Entry>): Option<SliceTimingOptions> {
    if Enabled(options, "slice_timing") then
      Some(SliceTimingOptions(GetOr(options, "TR", Null), GetOr(options, "TA", Null),
                              GetOr(options, "slice_order", Null), GetOr(options, "interleaved", Null)))
    else None
  }

  /** Motion correction (lines 240-246). */
  function RealignStage(options: seq<Entry>): Option<RealignOptions> {
    if Enabled(options, "realign") then
      Some(RealignOptions(GetOr(options, "reslice_realign", Bool(false)), GetOr(options, "register_to_mean", Bool(true))))
    else None
  }

  /**
    Coregistration (lines 248-254): `coregister_reslice` is read with
    `options[...]`, so with the stage on and the option absent the
    compilation fails.
   */
  function CoregisterStage(options: seq<Entry>): Result<Option<CoregisterOptions>, Error> {
    if !Enabled(options, "coregister") then Ok(None)
    else
      match Get(options, "coregister_reslice")
      case None => Err(MissingKey("coregister_reslice"))
      case Some(reslice) =>
        Ok(Some(CoregisterOptions(reslice, !Truthy(GetOr(options, "coreg_func_to_anat", Bool(true))))))
  }

  /** Normalization (lines 261-269). */
  function NormalizeStage(options: seq<Entry>): Option<NormalizeOptions> {
    if Enabled(options, "normalize") then
      Some(NormalizeOptions(GetOr(options, "func_voxel_sizes", DefaultFuncVoxelSizes),
                            GetOr(options, "anat_voxel_sizes", DefaultAnatVoxelSizes),
                            GetOr(options, "dartel", Bool(false))))
    else None
  }

  /** The parameter dictionary of lines 214-272. */
  function AssembleParams(options: seq<Entry>, outputDir: string, datasetDir: string): Result<Params, Error> {
    var st := SliceTimingStage(options);
    var coreg :- CoregisterStage(options);
    Ok(Params(
      spmDir := GetOr(options, "spm_dir", Null),
      matlabExec := GetOr(options, "matlab_exec", Null),
      report := GetOr(options, "report", Bool(true)),
      outputDir := outputDir,
      datasetId := GetOr(options, "dataset_id", Str(datasetDir)),
      nJobs := GetOr(options, "n_jobs", Null),
      caching := GetOr(options, "caching", Bool(true)),
      cvTc := GetOr(options, "cv_tc", Bool(true)),
      datasetDescription := GetOr(options, "dataset_description", Null),
      deleteOrient := GetOr(options, "deleteorient", Bool(false)),
      // switched back off when no TR is known
      sliceTiming := st.Some? && st.value.tr != Null,
      sliceTimingOptions := st,
      realign := Enabled(options, "realign"),
      realignOptions := RealignStage(options),
      coregister := Enabled(options, "coregister"),
      coregisterOptions := coreg,
      // tissue segmentation: only the switch
      segment := Enabled(options, "segment"),
      normalize := Enabled(options, "normalize"),
      normalizeOptions := NormalizeStage(options),
      fwhm := GetOr(options, "fwhm", Num(Float(0.0)))))
  }

  /** The only failure: coregistration on and `coregister_reslice` not given. */
  lemma AssembleFails(options: seq<Entry>, outputDir: string, datasetDir: string)
    ensures var r := AssembleParams(options, outputDir, datasetDir);
            && (r.Err? <==> Enabled(options, "coregister") && "coregister_reslice" !in Keys(options))
            && (r.Err? ==> r.error == MissingKey("coregister_reslice"))
  {
  }

  /** Each stage's options are present exactly when the stage is not disabled. */
  lemma AssembleStagesPresent(options: seq<Entry>, outputDir: string, datasetDir: string)
    ensures var r := AssembleParams(options, outputDir, datasetDir);
            r.Ok? ==>
              && (r.value.sliceTimingOptions.Some? <==> Enabled(options, "slice_timing"))
              && (r.value.realign <==> Enabled(options, "realign"))
              && (r.value.realignOptions.Some? <==> r.value.realign)
              && (r.value.coregister <==> Enabled(options, "coregister"))
              && (r.value.coregisterOptions.Some? <==> r.value.coregister)
              && (r.value.segment <==> Enabled(options, "segment"))
              && (r.value.normalize <==> Enabled(options, "normalize"))
              && (r.value.normalizeOptions.Some? <==> r.value.normalize)
  {
  }

  /**
    Slice timing is on exactly when it is not disabled and a TR is given;
    disabled for want of a TR, its options are still there, as `None`.
   */
  lemma AssembleSliceTiming(options: seq<Entry>, outputDir: string, datasetDir: string)
    ensures var r := AssembleParams(options, outputDir, datasetDir);
            && (r.Ok? ==>
                  (r.value.sliceTiming <==> Enabled(options, "slice_timing") && GetOr(options, "TR", Null) != Null))
            && (r.Ok? && Enabled(options, "slice_timing") ==>
                  r.value.sliceTimingOptions == Some(SliceTimingOptions(
                    GetOr(options, "TR", Null), GetOr(options, "TA", Null),
                    GetOr(options, "slice_order", Null), GetOr(options, "interleaved", Null))))
  {
  }

  /**
    The options of the other stages: each is the option given or the
    source's default; `coreg_anat_to_func` is the negation of
    `coreg_func_to_anat`, whose default is true.
   */
  lemma AssembleStageOptions(options: seq<Entry>, outputDir: string, datasetDir: string)
    ensures var r := AssembleParams(options, outputDir, datasetDir);
            && (r.Ok? && Enabled(options, "realign") ==>
                  && r.value.realignOptions.Some?
                  && r.value.realignOptions.value.reslice == GetOr(options, "reslice_realign", Bool(false))
                  && r.value.realignOptions.value.registerToMean == GetOr(options, "register_to_mean", Bool(true)))
            && (r.Ok? && Enabled(options, "coregister") ==>
                  && r.value.coregisterOptions.Some?
                  && Get(options, "coregister_reslice") == Some(r.value.coregisterOptions.value.reslice)
                  && (r.value.coregisterOptions.value.anatToFunc <==> !Truthy(GetOr(options, "coreg_func_to_anat", Bool(true)))))
            && (r.Ok? && Enabled(options, "normalize") ==>
                  && r.value.normalizeOptions.Some?
                  && r.value.normalizeOptions.value.funcVoxelSizes == GetOr(options, "func_voxel_sizes", DefaultFuncVoxelSizes)
                  && r.value.normalizeOptions.value.anatVoxelSizes == GetOr(options, "anat_voxel_sizes", DefaultAnatVoxelSizes)
                  && r.value.normalizeOptions.value.dartel == GetOr(options, "dartel", Bool(false)))
  {
  }

  /** The plain options and their defaults; the smoothing kernel defaults to 0. */
  lemma AssemblePlainOptions(options: seq<Entry>, outputDir: string, datasetDir: string)
    ensures var r := AssembleParams(options, outputDir, datasetDir);
            r.Ok? ==>
              && r.value.outputDir == outputDir
              && r.value.datasetId == GetOr(options, "dataset_id", Str(datasetDir))
              && r.value.report == GetOr(options, "report", Bool(true))
              && r.value.caching == GetOr(options, "caching", Bool(true))
              && r.value.cvTc == GetOr(options, "cv_tc", Bool(true))
              && r.value.deleteOrient == GetOr(options, "deleteorient", Bool(false))
              && r.value.spmDir == GetOr(options, "spm_dir", Null)
              && r.value.matlabExec == GetOr(options, "matlab_exec", Null)
              && r.value.nJobs == GetOr(options, "n_jobs", Null)
              && r.value.datasetDescription == GetOr(options, "dataset_description", Null)
              && r.value.fwhm == GetOr(options, "fwhm", Num(Float(0.0)))
  {
  }

  /** With no options at all every stage is on, and coregistration then fails. */
  lemma EmptyOptionsFail()
    ensures AssembleParams([], "/out", "/data") == Err(MissingKey("coregister_reslice"))
  {
    assert Enabled([], "coregister");
  }

  /** Coregistration switched off and nothing else given: every default, and no slice timing for want of a TR. */
  lemma DefaultsWithoutCoregistration()
    ensures var r := AssembleParams([Entry("disable_coregister", Bool(true))], "/out", "/data");
            && r.Ok?
            && !r.value.sliceTiming && r.value.sliceTimingOptions == Some(SliceTimingOptions(Null, Null, Null, Null))
            && r.value.fwhm == Num(Float(0.0))
            && r.value.normalizeOptions == Some(NormalizeOptions(DefaultFuncVoxelSizes, DefaultAnatVoxelSizes, Bool(false)))
            && r.value.datasetId == Str("/data")
            && r.value.coregisterOptions.None?
  {
    var options := [Entry("disable_coregister", Bool(true))];
    assert !Enabled(options, "coregister");
    assert Enabled(options, "slice_timing");
    assert Enabled(options, "normalize");
  }
}

=== FILE: results.dfy ===
/**
  Python's `None` and Python's exceptions, as values.

  - `Option<T>`: a value that may be `None`, such as what `dict.get` finds.
  - `Result<T, E>`: a computation that returns a `T` or raises the
    exception `E`; `:-` passes the exception on, as an uncaught `raise` does.
 */
module Results {

  datatype Option<+T> = None | Some(value: T) {

    /** `d.get(k, default)`: the value found, or `default` when nothing was. */
    function GetOr(default: T): T {
      if Some? then value else default
    }
  }

  datatype Result<+T, +E> = Ok(value: T) | Err(error: E) {

    /** An exception was raised. */
    predicate IsFailure() {
      Err?
    }

    /** The same exception, raised from a caller that returns a `U`. */
    function PropagateFailure<U>(): Result<U, E>
      requires Err?
    {
      Err(error)
    }

    /** The value returned when nothing was raised. */
    function Extract(): T
      requires Ok?
    {
      value
    }
  }
}

=== FILE: sanitizer.dfy ===
/**
  `_parse_job` of pypreprocess/conf_parser.py: the `sanitize` callback
  applied by `ConfigObj.walk` to every entry of the job file, sections
  included, and the selection of the `config` section.

  Parsing the job file text is ConfigObj's business and is not modelled: the
  input is the tree ConfigObj builds, whose leaves are strings and lists of
  strings. `eval`, applied to a few scalar keys, is a parameter of the model.
 */
module Sanitizer {
  import opened Results
  import opened Text
  import opened ConfigTree
  import opened Literals

  /** Keys whose string value goes through `eval`. */
  const EvalKeys: seq<string> := ["TR", "nslices", "refslice", "nsubjects", "nsessions", "n_jobs"]

  /** Keys whose value is read as a list of numbers. */
  const ListKeys: seq<string> := ["fwhm", "anat_voxel_sizes", "func_voxel_sizes", "slice_order"]

  /** `eval` applied to a string: a number, or `None` when it raises. */
  type Evaluator = string -> Option<Number>

  predicate IsTrueWord(s: string) {
    EqualsIgnoringCase(s, "true") || EqualsIgnoringCase(s, "yes")
  }

  predicate IsFalseWord(s: string) {
    EqualsIgnoringCase(s, "false") || EqualsIgnoringCase(s, "no")
  }

  predicate IsNullWord(s: string) {
    || EqualsIgnoringCase(s, "none") || EqualsIgnoringCase(s, "auto")
    || EqualsIgnoringCase(s, "unspecified") || EqualsIgnoringCase(s, "unknown")
  }

  /** A string starting with a digit is none of the words above. */
  lemma DigitIsNoWord(s: string)
    requires |s| > 0 && '0' <= s[0] <= '9'
    ensures !IsTrueWord(s) && !IsFalseWord(s) && !IsNullWord(s)
  {
    assert Lower(s[0]) == s[0];
  }

  /**
    The word coercion of a string value: true-like and false-like words
    become booleans, null-like words become `None`, whatever the case. The
    lower-casing of a `slice_order` string sits between the two in the code;
    it is never reached from `Sanitize`, which returns such strings first.
   */
  function CoerceWord(key: string, v: Value): (r: Value)
    ensures !v.Str? ==> r == v
    ensures v.Str? && key != "slice_order" ==>
              && (r == Bool(true) <==> IsTrueWord(v.s))
              && (r == Bool(false) <==> IsFalseWord(v.s))
              && (r == Null <==> IsNullWord(v.s))
              && (!IsTrueWord(v.s) && !IsFalseWord(v.s) && !IsNullWord(v.s) ==> r == v)
  {
    if !v.Str? then v
    else
      var s := v.s;
      var low := ToLower(s);
      ToLowerIsCaseInsensitiveEquality(s, "true");
      ToLowerIsCaseInsensitiveEquality(s, "yes");
      ToLowerIsCaseInsensitiveEquality(s, "false");
      ToLowerIsCaseInsensitiveEquality(s, "no");
      ToLowerIsCaseInsensitiveEquality(s, "none");
      ToLowerIsCaseInsensitiveEquality(s, "auto");
      ToLowerIsCaseInsensitiveEquality(s, "unspecified");
      ToLowerIsCaseInsensitiveEquality(s, "unknown");
      if low == "true" || low == "yes" then Bool(true)
      else if low == "false" || low == "no" then Bool(false)
      else if key == "slice_order" then Str(low)
      else if low == "none" || low == "auto" || low == "unspecified" || low == "unknown" then Null
      else v
  }

  /** `if val is not None: val = eval(val)`; `eval` of anything but a string raises. */
  function EvalStep(key: string, v: Value, eval: Evaluator): (r: Result<Value, Error>)
    ensures v == Null ==> r == Ok(Null)
    ensures v.Str? ==> (r.Ok? <==> eval(v.s).Some?)
    ensures v.Str? && r.Ok? ==> r.value == Num(eval(v.s).value)
    ensures !v.Str? && v != Null ==> r == Err(WrongType(key))
  {
    match v
    case Null => Ok(Null)
    case Str(s) =>
      (match eval(s)
       case Some(n) => Ok(Num(n))
       case None => Err(BadNumber(key)))
    case _ => Err(WrongType(key))
  }

  /** The value after word coercion and, for the `eval` keys, evaluation. */
  function Prepare(key: string, v: Value, eval: Evaluator): Result<Value, Error> {
    var c := CoerceWord(key, v);
    if key in EvalKeys then EvalStep(key, c, eval) else Ok(c)
  }

  /** The characters of `s`, each as a one-character string. */
  function Chars(s: string): (r: seq<string>)
    ensures |r| == |s|
    ensures forall k :: 0 <= k < |s| ==> r[k] == [s[k]]
  {
    seq(|s|, k requires 0 <= k < |s| => [s[k]])
  }

  /**
    The items `",".join(val)` iterates over, as written: the items of a list,
    or the characters of a bare string; joining anything else raises (a
    section's keys do join, but the walk then fails on the list that replaced it).
   */
  function ListTokensAsWritten(key: string, v: Value): (r: Result<seq<string>, Error>)
    ensures v.StrList? ==> r == Ok(v.items)
    ensures v.Str? ==> r == Ok(Chars(v.s))
    ensures !v.StrList? && !v.Str? ==> r == Err(WrongType(key))
  {
    match v
    case StrList(xs) => Ok(xs)
    case Str(s) => Ok(Chars(s))
    case _ => Err(WrongType(key))
  }

  /** The items as intended: a bare string is a list of one item. */
  function ListTokens(key: string, v: Value): (r: Result<seq<string>, Error>)
    ensures v.StrList? ==> r == Ok(v.items)
    ensures v.Str? ==> r == Ok([v.s])
    ensures !v.StrList? && !v.Str? ==> r == Err(WrongType(key))
  {
    match v
    case StrList(xs) => Ok(xs)
    case Str(s) => Ok([s])
    case _ => Err(WrongType(key))
  }

  /** The text `numpy.fromstring` reads: the items joined by commas, brackets removed. */
  function ListText(toks: seq<string>): string {
    Remove(Remove(JoinWith(toks, ","), '['), ']')
  }

  /**
    Lines 59-64: the numbers the joined text holds, `int` for `slice_order`
    and `float` otherwise; a single number stands alone.
   */
  function NumericList(key: string, toks: seq<string>): (r: Result<Value, Error>)
    ensures r.Ok? ==> r.value.Num? || r.value.NumList?
    ensures r.Ok? && r.value.NumList? ==> |r.value.ns| != 1
    ensures r.Ok? && r.value.Num? ==> r.value.n.Int? == (key == "slice_order")
    ensures r.Ok? && r.value.NumList? ==> forall k :: 0 <= k < |r.value.ns| ==> r.value.ns[k].Int? == (key == "slice_order")
  {
    match FromString(ListText(toks), key == "slice_order")
    case None => Err(BadNumber(key))
    case Some(ns) => Ok(if |ns| == 1 then Num(ns[0]) else NumList(ns))
  }

  /**
    `sanitize(section, key)`: the value stored back under `key`. A string
    `slice_order` is returned untouched. Other strings go through the word
    coercion; the `eval` keys are then evaluated and the list keys read as
    numbers. This is the corrected reading of a bare string under a list key
    (see `SanitizeAsWritten`); everything else is as in the code.
   */
  function Sanitize(key: string, v: Value, eval: Evaluator): (r: Result<Value, Error>)
    ensures key == "slice_order" && v.Str? ==> r == Ok(v)
    ensures key !in EvalKeys && key !in ListKeys ==> r == Ok(CoerceWord(key, v))
    ensures key in EvalKeys && v.Str? && IsNullWord(v.s) ==> r == Ok(Null)
    ensures key in EvalKeys && (v.StrList? || v.Section?) ==> r == Err(WrongType(key))
    ensures key in EvalKeys && v.Str? && (IsTrueWord(v.s) || IsFalseWord(v.s)) ==> r == Err(WrongType(key))
    ensures key in EvalKeys && v.Str? && !IsTrueWord(v.s) && !IsFalseWord(v.s) && !IsNullWord(v.s) ==>
              r == (match eval(v.s) case Some(n) => Ok(Num(n)) case None => Err(BadNumber(key)))
    ensures key in ListKeys && (v.Section? || (v.Str? && key != "slice_order" && CoerceWord(key, v) != v)) ==>
              r == Err(WrongType(key))
    ensures key in ListKeys && r.Ok? ==> r.value.Num? || r.value.NumList? || (key == "slice_order" && v.Str?)
  {
    if key == "slice_order" && v.Str? then Ok(v)
    else
      var e :- Prepare(key, v, eval);
      if key in ListKeys then
        var toks :- ListTokens(key, e);
        NumericList(key, toks)
      else Ok(e)
  }

  /** `sanitize` exactly as written: a bare string under a list key is joined character by character. */
  function SanitizeAsWritten(key: string, v: Value, eval: Evaluator): (r: Result<Value, Error>)
    ensures key in ListKeys && v.StrList? ==> r == Sanitize(key, v, eval)
    ensures key in ListKeys && key != "slice_order" && v.Str? && CoerceWord(key, v) == v ==>
              r == Sanitize(key, StrList(Chars(v.s)), eval)
    ensures key !in ListKeys ==> r == Sanitize(key, v, eval)
    ensures !(key in ListKeys && key != "slice_order" && v.Str? && CoerceWord(key, v) == v) ==>
              r == Sanitize(key, v, eval)
  {
    if key == "slice_order" && v.Str? then Ok(v)
    else
      var e :- Prepare(key, v, eval);
      if key in ListKeys then
        var toks :- ListTokensAsWritten(key, e);
        NumericList(key, toks)
      else Ok(e)
  }

  /**
    `ConfigObj.walk(sanitize, call_on_sections=True)` over the entries of
    the section `parent`: every entry is sanitised in order, a subsection is
    passed to `sanitize` itself and then walked; the first failure aborts.
   */
  function SanitizeEntries(ghost parent: Value, es: seq<Entry>, eval: Evaluator): (r: Result<seq<Entry>, Error>)
    requires forall i :: 0 <= i < |es| ==> es[i].val < parent
    ensures r.Ok? <==> forall i :: 0 <= i < |es| ==> Walks(es[i], eval)
    ensures r.Ok? ==> |r.value| == |es|
    ensures r.Ok? ==> forall i :: 0 <= i < |es| ==> SanitizedEntry(es[i], r.value[i], eval)
    decreases parent, 0, |es|
  {
    if |es| == 0 then Ok([])
    else
      WalksCons(es, eval);
      var head :- SanitizeEntry(es[0], eval);
      var rest :- SanitizeEntries(parent, es[1..], eval);
      var r := [head] + rest;
      assert forall i :: 1 <= i < |es| ==> es[i] == es[1..][i - 1] && r[i] == rest[i - 1];
      Ok(r)
  }

  /**
    The walk gets through the entry `e`: `sanitize` succeeds on it and, when
    it is a section, on every entry below it.
   */
  predicate Walks(e: Entry, eval: Evaluator)
    decreases e
  {
    && Sanitize(e.key, e.val, eval).Ok?
    && (e.val.Section? ==> forall i :: 0 <= i < |e.val.entries| ==> Walks(e.val.entries[i], eval))
  }

  /** The walk gets through a non-empty list exactly when it gets through its head and its tail. */
  lemma WalksCons(es: seq<Entry>, eval: Evaluator)
    requires |es| > 0
    ensures (forall i :: 0 <= i < |es| ==> Walks(es[i], eval)) <==>
              Walks(es[0], eval) && forall i :: 0 <= i < |es[1..]| ==> Walks(es[1..][i], eval)
  {
    assert forall i :: 1 <= i < |es| ==> es[i] == es[1..][i - 1];
  }

  /**
    `after` is what the walk leaves of the entry `before`: the same key and
    a successful `sanitize`; a scalar carries its result, and a section
    stays a section whose entries are, one by one, what the walk leaves of
    the original entries.
   */
  predicate SanitizedEntry(before: Entry, after: Entry, eval: Evaluator)
    decreases before
  {
    && after.key == before.key
    && Sanitize(before.key, before.val, eval).Ok?
    && (!before.val.Section? ==> Sanitize(before.key, before.val, eval) == Ok(after.val))
    && (before.val.Section? <==> after.val.Section?)
    && (before.val.Section? && after.val.Section? ==>
          && |after.val.entries| == |before.val.entries|
          && forall i :: 0 <= i < |before.val.entries| ==>
               SanitizedEntry(before.val.entries[i], after.val.entries[i], eval))
  }

  function SanitizeEntry(e: Entry, eval: Evaluator): (r: Result<Entry, Error>)
    ensures r.Ok? <==> Walks(e, eval)
    ensures r.Ok? ==> SanitizedEntry(e, r.value, eval)
    decreases e.val, 1
  {
    var v :- Sanitize(e.key, e.val, eval);
    match e.val
    case Section(children) =>
      var cs :- SanitizeEntries(e.val, children, eval);
      Ok(Entry(e.key, Section(cs)))
    case _ => Ok(Entry(e.key, v))
  }

  /** `_parse_job` after ConfigObj has read the file: sanitise everything, return `cobj['config']`. */
  function ParseJob(root: seq<Entry>, eval: Evaluator): (r: Result<Value, Error>)
    ensures r.Ok? ==> forall i :: 0 <= i < |root| ==> Sanitize(root[i].key, root[i].val, eval).Ok?
    ensures r.Ok? ==> "config" in Keys(root)
    ensures r.Ok? ==> SanitizedEntry(Entry("config", Get(root, "config").value), Entry("config", r.value), eval)
    ensures "config" !in Keys(root) ==> r.Err?
    ensures r.Ok? <==> (forall i :: 0 <= i < |root| ==> Walks(root[i], eval)) && "config" in Keys(root)
  {
    var tree :- SanitizeEntries(Section(root), root, eval);
    assert Keys(tree) == Keys(root);
    GetAligned(root, tree, "config", eval);
    match Get(tree, "config")
    case None => Err(MissingKey("config"))
    case Some(c) => Ok(c)
  }

  /**
    In two entry lists walked in step, the first entry with a given key
    sits at the same place in both, so looking the key up finds entries the
    walk relates.
   */
  lemma {:induction false} GetAligned(before: seq<Entry>, after: seq<Entry>, key: string, eval: Evaluator)
    requires |after| == |before|
    requires forall i :: 0 <= i < |before| ==> SanitizedEntry(before[i], after[i], eval)
    ensures Get(before, key).Some? <==> Get(after, key).Some?
    ensures Get(before, key).Some? ==>
              SanitizedEntry(Entry(key, Get(before, key).value), Entry(key, Get(after, key).value), eval)
  {
    if |before| > 0 {
      assert SanitizedEntry(before[0], after[0], eval);
      if before[0].key == key {
        assert Get(before, key) == Some(before[0].val) && Get(after, key) == Some(after[0].val);
        assert before[0] == Entry(key, before[0].val) && after[0] == Entry(key, after[0].val);
      } else {
        GetAligned(before[1..], after[1..], key, eval);
        assert Get(before, key) == Get(before[1..], key) && Get(after, key) == Get(after[1..], key);
      }
    }
  }

  /** The item with its brackets removed. */
  function Unbracket(tok: string): string {
    Remove(Remove(tok, '['), ']')
  }

  function UnbracketAll(toks: seq<string>): (r: seq<string>)
    ensures |r| == |toks|
    ensures forall k :: 0 <= k < |toks| ==> r[k] == Unbracket(toks[k])
  {
    seq(|toks|, k requires 0 <= k < |toks| => Unbracket(toks[k]))
  }

  /** The text read by `numpy.fromstring` is the unbracketed items joined by commas. */
  lemma ListTextUnbrackets(toks: seq<string>)
    ensures ListText(toks) == JoinWith(UnbracketAll(toks), ",")
  {
    var open := seq(|toks|, k requires 0 <= k < |toks| => Remove(toks[k], '['));
    RemoveFromJoined(toks, ',', '[');
    RemoveFromJoined(open, ',', ']');
    assert seq(|open|, k requires 0 <= k < |open| => Remove(open[k], ']')) == UnbracketAll(toks);
  }

  /**
    Brackets anywhere in the items do not matter: `[3, 3, 3]`, which
    ConfigObj splits into `[3`, `3` and `3]`, reads like `3, 3, 3`.
   */
  lemma SanitizeIgnoresBrackets(key: string, toks: seq<string>, eval: Evaluator)
    requires key in ListKeys
    ensures Sanitize(key, StrList(toks), eval) == Sanitize(key, StrList(UnbracketAll(toks)), eval)
  {
    ListTextUnbrackets(toks);
    ListTextUnbrackets(UnbracketAll(toks));
    assert UnbracketAll(UnbracketAll(toks)) == UnbracketAll(toks);
  }

  /** Each item is a literal of the key's dtype, with no comma and no bracket in it. */
  predicate AllLiterals(key: string, toks: seq<string>) {
    forall k :: 0 <= k < |toks| ==>
      && ParseToken(toks[k], key == "slice_order").Some?
      && ',' !in toks[k] && '[' !in toks[k] && ']' !in toks[k]
  }

  lemma ListKeysAreNotEvalKeys(key: string)
    requires key in ListKeys
    ensures key !in EvalKeys
  {
  }

  /** Under a list key, a list of strings goes straight to the number reading. */
  lemma SanitizeListIsNumericList(key: string, toks: seq<string>, eval: Evaluator)
    requires key in ListKeys
    ensures Sanitize(key, StrList(toks), eval) == NumericList(key, toks)
  {
    ListKeysAreNotEvalKeys(key);
    assert Prepare(key, StrList(toks), eval) == Ok(StrList(toks));
  }

  /** The numbers read from literals, in order. */
  function LiteralValues(key: string, toks: seq<string>): (nums: seq<Number>)
    requires AllLiterals(key, toks)
    ensures |nums| == |toks|
  {
    seq(|toks|, k requires 0 <= k < |toks| => ParseToken(toks[k], key == "slice_order").value)
  }

  lemma ListTextOfPlainItems(toks: seq<string>)
    requires forall k :: 0 <= k < |toks| ==> '[' !in toks[k] && ']' !in toks[k]
    ensures ListText(toks) == JoinWith(toks, ",")
  {
    NotInJoined(toks, ",", '[');
    NotInJoined(toks, ",", ']');
  }

  lemma JoinOfNonEmptyHead(toks: seq<string>)
    requires |toks| >= 1 && |toks[0]| > 0
    ensures JoinWith(toks, ",") != ""
  {
    if |toks| > 1 {
      assert JoinWith(toks, ",") == toks[0] + "," + JoinWith(toks[1..], ",");
    }
  }

  lemma NumericListOfLiterals(key: string, toks: seq<string>)
    requires |toks| >= 1
    requires AllLiterals(key, toks)
    ensures NumericList(key, toks) ==
              Ok(if |toks| == 1 then Num(LiteralValues(key, toks)[0]) else NumList(LiteralValues(key, toks)))
  {
    var isInt := key == "slice_order";
    ListTextOfPlainItems(toks);
    assert |toks[0]| > 0;
    JoinOfNonEmptyHead(toks);
    SplitAfterJoin(toks, ',');
    assert FromString(ListText(toks), isInt) == ParseTokens(toks, isInt);
    var parsed := ParseTokens(toks, isInt);
    var nums := LiteralValues(key, toks);
    assert parsed.Some?;
    assert forall k :: 0 <= k < |toks| ==> parsed.value[k] == nums[k];
    assert parsed.value == nums;
  }

  /**
    A list of literals under a list key becomes those numbers, in order and
    as many, `int` for `slice_order` and `float` otherwise; one literal
    becomes a bare number.
   */
  lemma SanitizeListOfLiterals(key: string, toks: seq<string>, eval: Evaluator)
    requires key in ListKeys
    requires |toks| >= 1
    requires AllLiterals(key, toks)
    ensures Sanitize(key, StrList(toks), eval) ==
              Ok(if |toks| == 1 then Num(LiteralValues(key, toks)[0]) else NumList(LiteralValues(key, toks)))
  {
    SanitizeListIsNumericList(key, toks, eval);
    NumericListOfLiterals(key, toks);
  }

  /**
    Corrected reading: a bare string under a list key other than
    `slice_order`, not a true/false/null word, is read as a list of one item.
   */
  lemma BareListValueIsOneItem(key: string, s: string, eval: Evaluator)
    requires key in ListKeys && key != "slice_order"
    requires !IsTrueWord(s) && !IsFalseWord(s) && !IsNullWord(s)
    ensures Sanitize(key, Str(s), eval) == Sanitize(key, StrList([s]), eval)
  {
  }

  /** The one-item list `10` under `fwhm` is the float 10.0. */
  lemma TenList(eval: Evaluator)
    ensures Sanitize("fwhm", StrList(["10"]), eval) == Ok(Num(Float(10.0)))
  {
    assert ParseToken("10", false) == Some(Float(10.0)) by {
      ParseShowFloat(10);
      assert Show(10) == "10";
    }
    SanitizeListOfLiterals("fwhm", ["10"], eval);
  }

  /** `fwhm = 10` (no comma, so ConfigObj gives the string "10") is read as 10.0 by the corrected reading. */
  lemma FwhmTenIsTen(eval: Evaluator)
    ensures Sanitize("fwhm", Str("10"), eval) == Ok(Num(Float(10.0)))
  {
    DigitIsNoWord("10");
    BareListValueIsOneItem("fwhm", "10", eval);
    TenList(eval);
  }

  /** The list `1, 0` under `fwhm` is the two floats 1.0 and 0.0. */
  lemma OneZeroList(eval: Evaluator)
    ensures Sanitize("fwhm", StrList(["1", "0"]), eval) == Ok(NumList([Float(1.0), Float(0.0)]))
  {
    var toks := ["1", "0"];
    assert ParseToken("1", false) == Some(Float(1.0)) by {
      ParseShowFloat(1);
    }
    assert ParseToken("0", false) == Some(Float(0.0)) by {
      ParseShowFloat(0);
    }
    assert AllLiterals("fwhm", toks);
    assert LiteralValues("fwhm", toks) == [Float(1.0), Float(0.0)];
    SanitizeListOfLiterals("fwhm", toks, eval);
  }

  /**
    As written, `",".join("10")` is "1,0": `fwhm = 10` becomes the two-element
    list [1.0, 0.0] instead of 10.0.
   */
  lemma FwhmTenAsWrittenIsOneZero(eval: Evaluator)
    ensures SanitizeAsWritten("fwhm", Str("10"), eval) == Ok(NumList([Float(1.0), Float(0.0)]))
  {
    DigitIsNoWord("10");
    assert CoerceWord("fwhm", Str("10")) == Str("10");
    assert Chars("10") == ["1", "0"];
    OneZeroList(eval);
  }
}

=== FILE: sorting.dfy ===
/**
  Python's `sorted` on a list of path strings, as a functional insertion
  sort over the lexicographic order of `Text.LexLe`.
 */
module Sorting {
  import opened Text

  predicate Sorted(s: seq<string>) {
    forall i, j :: 0 <= i < j < |s| ==> LexLe(s[i], s[j])
  }

  /** Inserts `x` into the sorted list `s` before its first strictly greater element. */
  function Insert(x: string, s: seq<string>): (r: seq<string>)
    requires Sorted(s)
    ensures Sorted(r)
    ensures multiset(r) == multiset(s) + multiset{x}
  {
    if |s| == 0 then [x]
    else if LexLe(x, s[0]) then
      assert forall j :: 0 < j < |s| ==> LexLe(x, s[j]) by {
        forall j | 0 < j < |s| {
          LexLeTransitive(x, s[0], s[j]);
        }
      }
      [x] + s
    else
      LexLeTotal(x, s[0]);
      var rest := Insert(x, s[1..]);
      assert s == [s[0]] + s[1..];
      LowerBoundKept(s[0], x, s[1..], rest);
      [s[0]] + rest
  }

  /** A lower bound of `x` and of every element of `s` bounds every element of a permutation of `s` plus `x`. */
  lemma LowerBoundKept(lo: string, x: string, s: seq<string>, r: seq<string>)
    requires multiset(r) == multiset(s) + multiset{x}
    requires LexLe(lo, x) && forall k :: 0 <= k < |s| ==> LexLe(lo, s[k])
    ensures forall k :: 0 <= k < |r| ==> LexLe(lo, r[k])
  {
    forall k | 0 <= k < |r| ensures LexLe(lo, r[k]) {
      assert r[k] in multiset(r);
      if r[k] != x {
        assert r[k] in multiset(s);
        var j :| 0 <= j < |s| && s[j] == r[k];
      }
    }
  }

  /** `sorted(xs)`: an ordered permutation of `xs`. */
  function Sort(xs: seq<string>): (r: seq<string>)
    ensures Sorted(r)
    ensures multiset(r) == multiset(xs)
    ensures |r| == |xs|
  {
    if |xs| == 0 then []
    else
      assert xs == [xs[0]] + xs[1..];
      Insert(xs[0], Sort(xs[1..]))
  }

  /** Sorting is determined by the multiset of inputs: the order glob reports does not matter. */
  lemma {:induction false} SortedPermutationsAreEqual(a: seq<string>, b: seq<string>)
    requires Sorted(a) && Sorted(b)
    requires multiset(a) == multiset(b)
    ensures a == b
    decreases |a|
  {
    if |a| > 0 {
      assert |b| == |multiset(b)| == |a|;
      assert a[0] in multiset(b) && b[0] in multiset(a);
      var i :| 0 <= i < |b| && b[i] == a[0];
      var j :| 0 <= j < |a| && a[j] == b[0];
      LexLeReflexive(a[0]);
      LexLeReflexive(b[0]);
      assert LexLe(b[0], b[i]);
      assert LexLe(a[0], a[j]);
      LexLeAntisymmetric(a[0], b[0]);
      assert a == [a[0]] + a[1..];
      assert b == [b[0]] + b[1..];
      assert multiset(a) == multiset{a[0]} + multiset(a[1..]);
      assert multiset(b) == multiset{b[0]} + multiset(b[1..]);
      assert multiset(a[1..]) == multiset(a) - multiset{a[0]};
      assert multiset(b[1..]) == multiset(b) - multiset{b[0]};
      SortedPermutationsAreEqual(a[1..], b[1..]);
    }
  }

  /** Two enumerations of the same matches sort to the same list. */
  lemma SortIsDeterministic(xs: seq<string>, ys: seq<string>)
    requires multiset(xs) == multiset(ys)
    ensures Sort(xs) == Sort(ys)
  {
    SortedPermutationsAreEqual(Sort(xs), Sort(ys));
  }
}

=== FILE: text.dfy ===
/**
  The handful of Python `str` operations the job compiler relies on:
  ASCII lower-casing, `sep.join`, `str.replace(c, "")`, prefix and
  substring tests, and the lexicographic order used by `sorted`.
 */
module Text {

  /** Python 2 `str.lower` on one character: only ASCII capitals change. */
  function Lower(c: char): char {
    if 'A' <= c <= 'Z' then (c as int + 32) as char else c
  }

  function ToLower(s: string): (r: string)
    ensures |r| == |s|
    ensures forall i :: 0 <= i < |s| ==> r[i] == Lower(s[i])
  {
    if |s| == 0 then "" else [Lower(s[0])] + ToLower(s[1..])
  }

  /** `s` equals the lower-case word `w` when case is ignored. */
  predicate EqualsIgnoringCase(s: string, w: string) {
    |s| == |w| && forall i :: 0 <= i < |s| ==> Lower(s[i]) == w[i]
  }

  lemma ToLowerIsCaseInsensitiveEquality(s: string, w: string)
    ensures ToLower(s) == w <==> EqualsIgnoringCase(s, w)
  {
    if EqualsIgnoringCase(s, w) {
      assert forall i :: 0 <= i < |s| ==> ToLower(s)[i] == w[i];
    }
  }

  predicate StartsWith(s: string, prefix: string) {
    |prefix| <= |s| && s[..|prefix|] == prefix
  }

  predicate EndsWith(s: string, suffix: string) {
    |suffix| <= |s| && s[|s| - |suffix|..] == suffix
  }

  /** Python's `t in s` for two strings: `t` occurs somewhere in `s`. */
  predicate IsSubstring(t: string, s: string) {
    StartsWith(s, t) || (|s| > 0 && IsSubstring(t, s[1..]))
  }

  /** `sep.join(parts)`. */
  function JoinWith(parts: seq<string>, sep: string): (r: string)
    ensures |parts| == 1 ==> r == parts[0]
  {
    if |parts| == 0 then ""
    else if |parts| == 1 then parts[0]
    else parts[0] + sep + JoinWith(parts[1..], sep)
  }

  /** `s.replace(c, "")`: every occurrence of `c` removed, the rest kept in order. */
  function Remove(s: string, c: char): (r: string)
    ensures c !in r
    ensures forall x :: x in r <==> x in s && x != c
    ensures c !in s ==> r == s
  {
    if |s| == 0 then ""
    else if s[0] == c then Remove(s[1..], c)
    else [s[0]] + Remove(s[1..], c)
  }

  /** Index of the first `c` in `s`, or `|s|` when there is none. */
  function IndexOf(s: string, c: char): (i: nat)
    ensures i <= |s|
    ensures c !in s[..i]
    ensures i < |s| ==> s[i] == c
  {
    if |s| == 0 then 0
    else if s[0] == c then 0
    else 1 + IndexOf(s[1..], c)
  }

  /** `s.split(c)`: the maximal runs of `s` free of `c`, empty runs included. */
  function Split(s: string, c: char): (r: seq<string>)
    ensures |r| >= 1
    ensures forall k :: 0 <= k < |r| ==> c !in r[k]
    decreases |s|
  {
    var i := IndexOf(s, c);
    if i == |s| then [s] else [s[..i]] + Split(s[i + 1..], c)
  }

  /** Joining `c`-free parts with `c` and splitting at `c` gives back the parts. */
  lemma {:induction false} SplitAfterJoin(parts: seq<string>, c: char)
    requires |parts| >= 1
    requires forall k :: 0 <= k < |parts| ==> c !in parts[k]
    ensures Split(JoinWith(parts, [c]), c) == parts
  {
    if |parts| > 1 {
      var s := JoinWith(parts, [c]);
      var tail := JoinWith(parts[1..], [c]);
      assert s == parts[0] + [c] + tail;
      IndexOfFirstSeparator(parts[0], tail, c);
      assert s[..|parts[0]|] == parts[0];
      assert s[|parts[0]| + 1..] == tail;
      SplitAfterJoin(parts[1..], c);
    }
  }

  lemma IndexOfFirstSeparator(a: string, b: string, c: char)
    requires c !in a
    ensures IndexOf(a + [c] + b, c) == |a|
  {
    if |a| > 0 {
      assert (a + [c] + b)[1..] == a[1..] + [c] + b;
      IndexOfFirstSeparator(a[1..], b, c);
    }
  }

  /**
    Python's `a <= b` on strings: `a` is a prefix of `b`, or at the first
    position where they differ `a` has the smaller character.
   */
  predicate LexLe(a: string, b: string)
    decreases |a|
  {
    |a| == 0 || (|b| > 0 && (a[0] < b[0] || (a[0] == b[0] && LexLe(a[1..], b[1..]))))
  }

  lemma {:induction false} LexLeReflexive(a: string)
    ensures LexLe(a, a)
    decreases |a|
  {
    if |a| > 0 {
      LexLeReflexive(a[1..]);
    }
  }

  lemma {:induction false} LexLeTotal(a: string, b: string)
    ensures LexLe(a, b) || LexLe(b, a)
    decreases |a|
  {
    if |a| > 0 && |b| > 0 && a[0] == b[0] {
      LexLeTotal(a[1..], b[1..]);
    }
  }

  lemma {:induction false} LexLeTransitive(a: string, b: string, c: string)
    requires LexLe(a, b) && LexLe(b, c)
    ensures LexLe(a, c)
    decreases |a|
  {
    if |a| > 0 && a[0] == b[0] && b[0] == c[0] {
      LexLeTransitive(a[1..], b[1..], c[1..]);
    }
  }

  lemma {:induction false} LexLeAntisymmetric(a: string, b: string)
    requires LexLe(a, b) && LexLe(b, a)
    ensures a == b
    decreases |a|
  {
    if |a| > 0 {
      LexLeAntisymmetric(a[1..], b[1..]);
      assert a == [a[0]] + a[1..];
      assert b == [b[0]] + b[1..];
    }
  }

  /** A character in neither the parts nor the separator is not in their join. */
  lemma {:induction false} NotInJoined(parts: seq<string>, sep: string, c: char)
    requires c !in sep
    requires forall k :: 0 <= k < |parts| ==> c !in parts[k]
    ensures c !in JoinWith(parts, sep)
  {
    if |parts| > 1 {
      NotInJoined(parts[1..], sep, c);
    }
  }

  /** Removing a character other than the separator can be done before joining. */
  lemma {:induction false} RemoveFromJoined(parts: seq<string>, sep: char, c: char)
    requires c != sep
    ensures Remove(JoinWith(parts, [sep]), c) == JoinWith(seq(|parts|, k requires 0 <= k < |parts| => Remove(parts[k], c)), [sep])
  {
    var stripped := seq(|parts|, k requires 0 <= k < |parts| => Remove(parts[k], c));
    if |parts| > 1 {
      RemoveFromJoined(parts[1..], sep, c);
      assert stripped[1..] == seq(|parts[1..]|, k requires 0 <= k < |parts[1..]| => Remove(parts[1..][k], c));
      RemoveConcat(parts[0] + [sep], JoinWith(parts[1..], [sep]), c);
      RemoveConcat(parts[0], [sep], c);
    }
  }

  lemma {:induction false} RemoveConcat(a: string, b: string, c: char)
    ensures Remove(a + b, c) == Remove(a, c) + Remove(b, c)
  {
    if |a| > 0 {
      assert (a + b)[1..] == a[1..] + b;
      RemoveConcat(a[1..], b, c);
    } else {
      assert a + b == b;
    }
  }
}
